=== FILE: README.md ===
# Influencer registration: scraper, handlers and form, in Dafny

This project models the part of the influencer-registration app that moves
data between Instagram, the registration form and the `influencers` table:

- the profile scraper (`backend/src/scraper.ts`):
  - the request URL;
  - the mapping of the upstream user record to the scraped profile;
  - the rewrite of picture URLs onto the image proxy through
    `encodeURIComponent`;
  - the three failure messages;
  - the 5-second rate governor that sits next to it.
- the Express routes `POST /influencers` and `POST /scrape`
  (`backend/src/index.ts`).
- the serverless (Vercel) handlers for influencers, image proxy and scrape
  (`api/*.ts`), and their Next route twins (`src/app/api/*/route.ts`).
  Each handler answers OPTIONS preflights and rejects other verbs with 405,
  or lets the framework do so.
- the registration form (`src/app/cadastro/page.tsx`):
  - its zod schema, and the error map built from the schema's issues;
  - the change handler and the scrape trigger;
  - the merge of a scrape reply;
  - the submission payload.

Every handler is a pure function from the request (verb, parsed body, query
value) and the answers of its collaborators to an `Exchange`. An `Exchange`
holds what was handed to the collaborator (the row to insert, the URL to
fetch) and the response sent back. The collaborators are function
parameters:

- the database (`InsertOutcome`, `SelectOutcome`);
- the Instagram endpoint (`Upstream`);
- the image host (`ImageOutcome`);
- the Next app's own scraper module.

JavaScript values are the `JsValue` datatype. Its helpers give the
language's semantics where the source leans on them:

- truthiness;
- property reads that throw on `undefined` and `null`;
- `String()` and `Number()`;
- `trim` (the exact WhiteSpace and LineTerminator set);
- `split`;
- UTF-16 lengths.

`encodeURIComponent` and `decodeURIComponent` follow section 19.2.6 of
ECMA-262. They encode to UTF-8 with upper-case `%XX` escapes, and decoding
rejects overlong forms, surrogates and code points above U+10FFFF.

The form is a state machine. `RegistrationForm.Step` applies one event:

- a field edit;
- the debounced scrape firing;
- a scrape reply or failure;
- a submit;
- the end of a submission.

`Wiring` states what happens when the pieces meet:

The form sends both of its requests to the Express app on
`http://localhost:3001` (`/scrape` and `/influencers`).

- The form's scrape request (`{username}`) is refused by the Express route,
  which reads `instagram`.
- Were the same body posted to the serverless scrape handler, which reads
  `username`, it would reach the scraper.
- A scrape reply can fill only the name and follower count, because the
  scraper's keys (`biography`, `is_private`, `profile_pic_url`) differ from
  the ones the form reads (`bio`, `isPrivate`, `profilePicUrl`).
- A valid submission reaches the Express INSERT. Were it posted to the
  serverless influencers handler instead, it would reach that INSERT too.
- No handler serves the rewritten picture URLs. They point at
  `http://localhost:3001/proxy-image`, but the Express app defines no such
  route, and the serverless and Next proxy handlers live at
  `/api/proxy-image`. Were the `url` parameter of a rewritten URL handed to
  the Next proxy, it would fetch the original URL exactly.

`Variants` states where the serverless handlers and their Next twins agree.

Facts about the code that a reader might not expect:

- the scraper sends the handle verbatim; it does not strip a leading `@`;
- no cache is consulted;
- a missing `data.user` record is reported as a generic fetch error, not as
  "not found", because the thrown error is re-wrapped by the catch block;
- a missing `edge_followed_by` throws rather than defaulting;
- the picture is always `profile_pic_url`;
- a failed image fetch answers 500.

## Model

| member | source | states |
|---|---|---|
| JsStrings.TrimBounds | backend/src/index.ts:51 | `trim` keeps the longest middle slice that neither starts nor ends with JS whitespace, and everything it removes is whitespace |
| JsStrings.TrimIdempotent | backend/src/index.ts:51 | trimming a trimmed tag changes nothing |
| JsStrings.SplitCount | backend/src/index.ts:51 | `split(',')` yields one more piece than there are commas |
| JsStrings.SplitPiecesHaveNoSeparator | backend/src/index.ts:51 | no piece of `split(',')` contains a comma |
| JsStrings.SplitJoin | backend/src/index.ts:51 | joining the pieces of `split(',')` with commas gives back the original text |
| JsStrings.Utf16Length | src/app/cadastro/page.tsx:88 | the `length` the form tests counts UTF-16 code units: it equals the character count exactly when every character is in the Basic Multilingual Plane, and twice it exactly when none is |
| JsStrings.Utf16LengthAppend | src/app/cadastro/page.tsx:88 | appending a character adds one code unit, or two for a character above U+FFFF |
| JsStrings.IntToDecimalRoundTrip | src/app/cadastro/page.tsx:104 | the decimal text of an integer parses back to that integer |
| JsValues.FalsyValues | api/influencers.ts:30 | exactly six values are falsy: `undefined`, `null`, `false`, `0`, `NaN` and `""`; every array and object is truthy |
| JsValues.TruthyIsNonZeroNumber | src/app/cadastro/page.tsx:104 | for a value that is not text, an array or an object, truthiness agrees with converting it to a non-zero number |
| JsValues.ToString | backend/src/scraper.ts:64 | `String(v)` as a template literal applies it: text as is, an integer as its decimal text (which parses back to it), and the fixed texts of `undefined`, `null`, booleans, `NaN` and objects; an empty array prints as `""` and a one-text array as that text |
| JsValues.ToNumber | src/app/cadastro/page.tsx:104 | `Number(v)`: text goes through `StringToNumber`, `null` is 0, booleans are 1 and 0, `undefined`, `NaN` and objects are NaN, a number is itself, an array converts through its text |
| JsValues.ReadProperty | backend/src/scraper.ts:74 | reading a property fails exactly on `undefined` and `null`, with the engine's message naming the key, and a missing key reads as `undefined` |
| JsValues.StringToNumber | src/app/cadastro/page.tsx:104 | `Number` of text: empty or blank text is 0; signed decimal digits, `0x`/`0b`/`0o` literals and zero-fraction decimals give their integer value; any other trimmed text is NaN |
| JsValues.NonDecimalText | src/app/cadastro/page.tsx:104 | `Number` of a `0x`/`0b`/`0o` literal without edge white space is the literal's value |
| JsValues.ZeroFractionText | src/app/cadastro/page.tsx:104 | `Number` of a decimal with an all-zero fraction and no edge white space is its integer value |
| JsValues.HexLiteral | src/app/cadastro/page.tsx:104 | `Number("0x10")` is 16 |
| JsValues.BinaryLiteral | src/app/cadastro/page.tsx:104 | `Number("0b11")` is 3 |
| JsValues.TrailingPointLiteral | src/app/cadastro/page.tsx:104 | `Number("5.")` is 5 |
| JsValues.NumberOfStringRoundTrip | src/app/cadastro/page.tsx:104 | `Number` of the decimal text of an integer is that integer |
| UriComponent.EncodeURIComponent | backend/src/scraper.ts:45 | the encoding contains only unreserved characters, `%` and upper-case hex digits, and text of unreserved characters only is left as it is |
| UriComponent.EncodingHasNoDelimiters | backend/src/scraper.ts:45-46 | the encoded value cannot end the query value early: no `&`, `#`, `?`, `=`, `/`, `:`, `+` or space |
| UriComponent.Utf8RoundTrip | backend/src/scraper.ts:45 | the strict UTF-8 decoder returns the character whose bytes the encoder wrote |
| UriComponent.DecodeEncodeRoundTrip | backend/src/scraper.ts:45 | `decodeURIComponent(encodeURIComponent(s)) == s` for every string |
| UriComponent.EncodingIsInjective | backend/src/scraper.ts:45 | different URLs get different encodings |
| Scraper.ConvertToProxyUrl | backend/src/scraper.ts:43-47 | the result is empty exactly when the input is falsy; otherwise it is the proxy endpoint followed by exactly the encoding of `String(input)`, which as a whole forms the `url` parameter |
| Scraper.QueryValueOfUndelimited | backend/src/scraper.ts:46 | text without `&` or `#` is read back in full as a query value |
| Scraper.ProxyUrlRoundTrip | backend/src/scraper.ts:43-47 | the `url` parameter of the rewritten URL decodes to the original URL text |
| Scraper.RequestUrl | backend/src/scraper.ts:64 | the handle is appended to the profile endpoint unchanged, so a leading `@` is sent along |
| Scraper.Extract | backend/src/scraper.ts:74-89 | a truthy user record succeeds exactly when `edge_followed_by.count` can be read, and maps to name, follower count, biography, privacy flag and the proxied picture; a falsy record fails with "not found", and a failed read fails with the engine's message |
| Scraper.Classify | backend/src/scraper.ts:90-99 | 429 gives the rate message; 404 gives "not found"; any other failure, including a missing user record, is the fetch-error prefix plus the original message; these are the only errors |
| Scraper.ScrapeInstagramProfile | backend/src/scraper.ts:62-100 | the result is decided by what the profile endpoint gives for the verbatim handle: success exactly when it responded with an extractable record; 429, 404 and other failures give the three messages; every error is one of the three classes, and a scraped picture is empty or points at the proxy |
| Scraper.MissingUserIsGenericFailure | backend/src/scraper.ts:76-78 | a reply without a user record is reported with the fetch-error prefix, not as "not found" |
| Scraper.ScrapedPictureIsProxied | backend/src/scraper.ts:81 | a non-empty scraped picture URL leads back, through the proxy parameter, to the upstream `profile_pic_url` |
| Scraper.ProfileJson | backend/src/scraper.ts:83-89 | the reply object has exactly the keys `name`, `followers`, `biography`, `is_private`, `profile_pic_url` |
| RateLimit.Wait | backend/src/scraper.ts:25-33 | no wait when at least 5000 ms have passed; otherwise the wait ends exactly 5000 ms after the last request, and it never exceeds 5000 ms |
| RateLimit.AwaitSpacing | backend/src/scraper.ts:25-36 | with an honest clock, a call completes at least 5000 ms after the previous one |
| RateLimit.RunSpacing | backend/src/scraper.ts:21-36 | over any sequence of calls with an honest clock, consecutive completions are at least 5000 ms apart |
| Tags.SplitTags | backend/src/index.ts:51 | the tags number one more than the commas, each is its piece trimmed, and none contains a comma or has edge whitespace |
| Tags.SingleTag | backend/src/index.ts:51 | text without a comma becomes the single tag `trim(text)` |
| BackendRoutes.ProfileTags | backend/src/index.ts:51 | a falsy profile gives no tags, a string gives its trimmed comma-separated pieces, and any other truthy value throws |
| BackendRoutes.PostInfluencers | backend/src/index.ts:43-69 | 400 without inserting when name or handle is falsy; otherwise the insert carries name, handle, tags and notes, and answers 201 with the row, 409 on a unique violation or 500 as text |
| BackendRoutes.PostInfluencersIgnoresProfileFields | backend/src/index.ts:45-58 | followers, bio and picture in the body change neither the insert nor the response |
| BackendRoutes.PostScrape | backend/src/index.ts:83-97 | 400 without scraping when `instagram` is falsy; otherwise 200 with the profile or 500 with the scraper's message |
| BackendRoutes.ThrownMessage | backend/src/index.ts:94 | the fallback text shows exactly when the thrown value is not an `Error` (or carries that very text); any other text reported is the `Error`'s own message |
| BackendRoutes.ScraperErrorIsNotFallback | backend/src/index.ts:94 | none of the scraper's three error texts is the fallback text |
| BackendRoutes.ScrapeFallbackUnreachable | backend/src/index.ts:93-95 | the scraper only rejects with `Error` objects, so the "unknown error" text is never sent |
| InfluencerRows.ProfileTags | api/influencers.ts:34-38 | a falsy profile is stored as null, an array as it is, a string as trimmed pieces; any other truthy value throws the TypeError "profile.split is not a function" |
| InfluencerRows.Post | api/influencers.ts:27-56 | the INSERT is sent exactly when name and handle are truthy and the profile parses; the row holds them with falsy optional columns as null; a profile that throws ends the request with that fault and no INSERT |
| InfluencerRows.OrNull | api/influencers.ts:48-52 | an optional column keeps its value or becomes null, with truthiness unchanged; null is the only falsy value stored |
| InfluencerRows.ZeroFollowersStoredAsNull | api/influencers.ts:48 | a follower count of 0 is stored as null |
| InfluencerRows.PostResponse | api/influencers.ts:56-72 | 201 with the row; a unique violation gives 400; any other failure gives 500; both failures carry `detail` and `code` |
| InfluencerRows.ListResponse | api/influencers.ts:15-23 | 200 with the rows, or 500 with the listing error |
| VercelInfluencers.Handler | api/influencers.ts:4-77 | OPTIONS gives 200 with no body; GET lists; POST sends the INSERT exactly when name and handle are truthy and the profile parses, answers with that outcome's response (201 with the inserted row, 400 for missing fields or a duplicate, 500 with the prefixed message, including "profile.split is not a function" for a profile that is neither text nor an array); any other verb gives 405; CORS headers are on every response |
| Http.Cors | api/influencers.ts:6-8 | the three CORS headers each handler sets: any origin, the route's methods, and `Content-Type` as the allowed header |
| Http.NextPreflight | src/app/api/influencers/route.ts:11-13 | the preflight of each Next route (influencers, proxy-image and scrape alike) answers 200 with an empty JSON object and that route's CORS headers |
| NextInfluencers.Get | src/app/api/influencers/route.ts:15-26 | 200 with the rows, or 500 with the listing error |
| NextInfluencers.Post | src/app/api/influencers/route.ts:28-87 | an unparsable body gives 500 without inserting; a parsed body sends the INSERT exactly when name and handle are truthy and the profile parses, and gets that outcome's response: 201 with the inserted row, 400 or 500 with the fault, 500 "profile.split is not a function" for a profile that is neither text nor an array |
| ImageProxy.ImageHeaders | api/proxy-image.ts:30-32 | the image response carries CORS, the upstream content type and a one-year public cache |
| VercelProxyImage.Handler | api/proxy-image.ts:4-43 | a missing or empty `url` gives 400 without fetching; otherwise exactly that URL is fetched, and the answer is the bytes or 500 |
| NextProxyImage.Get | src/app/api/proxy-image/route.ts:15-50 | a missing or empty `url` gives 400 without fetching; otherwise exactly that URL is fetched, and the answer is the bytes or 500 |
| VercelScrape.Handler | api/scrape.ts:4-31 | a falsy `username` gives 400 without scraping; otherwise 200 with the profile or 500 with the scraper's message; other verbs give 405 |
| NextScrape.Post | src/app/api/scrape/route.ts:15-36 | a falsy `username` gives 400 without scraping; otherwise the scraper's data, or 500 with its message |
| FormSchema.SafeParse | src/app/cadastro/page.tsx:31-43 | parsing succeeds exactly when the schema raises no issue, and a success carries the typed fields of the input |
| FormSchema.InstagramRule | src/app/cadastro/page.tsx:33-37 | a string handle passes exactly when it starts with `@`, is at least 2 UTF-16 units long and has no whitespace |
| FormSchema.ShortNameRejected | src/app/cadastro/page.tsx:32 | a full name shorter than 3 UTF-16 units fails the parse |
| FormSchema.ErrorMap | src/app/cadastro/page.tsx:147-152 | the error map has a key exactly for the fields with an issue, holding that field's last message |
| RegistrationForm.HandleChange | src/app/cadastro/page.tsx:69-80 | the edited field takes the value; its error is cleared if one was shown, and otherwise the errors are unchanged; other fields' errors are kept; the scrape status resets only for `instagram` |
| RegistrationForm.StartScrape | src/app/cadastro/page.tsx:88-94 | a request `{username: handle}` is issued exactly when the handle is longer than one unit and starts with `@` |
| RegistrationForm.FollowerCount | src/app/cadastro/page.tsx:104 | a falsy count becomes `undefined`; otherwise it is `Number(count)`, so the decimal text of an integer becomes that integer |
| RegistrationForm.ApplyScrapeReply | src/app/cadastro/page.tsx:95-119 | the name is filled only when truthy and no name is present; picture, bio and followers are always overwritten; the status becomes success |
| RegistrationForm.ApplyScrapeFailure | src/app/cadastro/page.tsx:121-130 | the status shows the server's error when truthy, else the generic message, with no privacy flag; scraping stops; data, errors and loading are untouched |
| RegistrationForm.SubmissionJson | src/app/cadastro/page.tsx:161-169 | the payload has exactly the seven schema keys, holding the parsed values |
| RegistrationForm.Submit | src/app/cadastro/page.tsx:143-158 | an invalid form shows the error map and sends nothing; a valid one clears the errors, starts loading and sends the payload |
| RegistrationForm.FinishSubmit | src/app/cadastro/page.tsx:184-200 | loading ends; success clears the data and the scrape status; failure keeps both; errors and the scraping flag are untouched |
| RegistrationForm.RunKeepsHandleText | src/app/cadastro/page.tsx:69-80 | from a form whose handle is text, every sequence of events keeps it text |
| Wiring.FormScrapeRejectedByBackend | src/app/cadastro/page.tsx:92-94 | the form's scrape request reaches the Express route without `instagram`, which answers 400 and never scrapes |
| Wiring.FormScrapeReachesServerlessScraper | api/scrape.ts:17-22 | were the form's scrape body posted to the serverless scrape handler, it would fetch the typed handle |
| Wiring.ScrapedProfileMergesOnlyNameAndFollowers | src/app/cadastro/page.tsx:95-113 | merging a scraper reply clears picture and bio and reports no privacy flag, because the keys differ |
| Wiring.SubmissionReachesBackendInsert | src/app/cadastro/page.tsx:161-173 | a valid submission passes the Express route's check, and the INSERT carries the form's name, handle, notes, and the profile text as trimmed tags (none when it is absent or empty) |
| Wiring.SubmissionReachesServerlessInsert | api/influencers.ts:27-56 | were a valid submission posted to the serverless handler, its INSERT would carry the form's name and handle, the optional fields with falsy ones as null, and the parsed tags |
| Wiring.ProxiedPictureFetchedVerbatim | src/app/api/proxy-image/route.ts:17-25 | were the `url` parameter of a rewritten picture URL handed to the Next proxy, it would fetch exactly the original URL |
| Variants.ProxyVariantsAgree | api/proxy-image.ts:15-40 | a GET to the serverless proxy and to the Next proxy gives the same fetch, status, headers and body |
| Variants.InfluencerVariantsAgree | api/influencers.ts:15-74 | for a parsed body, the serverless and Next influencer handlers send the same INSERT and the same response; GET gives the same listing |
| Variants.ScrapeVariantsAgree | api/scrape.ts:15-28 | with the backend scraper behind the Next route, both scrape handlers scrape for the same bodies and give the same response |

## Left out

- Network, HTTP and SQL: axios, `pg` and the framework request objects are
  replaced by parameters. SQL text, `RETURNING *` row contents and
  `NOW()` are not modelled.
- `backend/src/db.ts` and the `/setup` route: connection pool and DDL only.
- The backend `GET /influencers` route: a SELECT passed through. Its
  serverless and Next twins are modelled.
- `api/index.ts`: it only re-exports the Express app.
- The scraper's cache: declared but never read or written.
- Lone surrogates: a Dafny `char` is a Unicode scalar value, so text never
  holds an unpaired UTF-16 unit. The `URIError` that `encodeURIComponent`
  throws on one, and the length such a unit adds, are not modelled.
- RateLimit.RunSpacing: overlapping calls are not modelled. The source
  reads `lastRequestTime` before it sleeps, so two calls that overlap both
  compute their wait from the same stale time and can finish together.
- `waitForRateLimit` is modelled as `RateLimit` but is not called by
  `scrapeInstagramProfile`. The sleep itself is a clock reading after the
  wait.
- Logging (`console.*`), toasts, rendering, `formatFollowers` and the
  listing page: they have no effect on the data.
- The debounce timer and its cancellation. The debounced request is the
  `ScrapeTriggered` event, and a stale reply is applied to the current
  state. The closure's snapshot of `fullName` is taken to be
  the current one.
- zod's `.url()` check is the parameter `isUrl`. WHATWG URL parsing is not
  modelled.
- Numbers are integers plus NaN. `Number` of text reads decimal integers,
  `0x`/`0b`/`0o` literals, and decimals whose fraction is all zeros (`5.`,
  `.0`).
- JsValues.StringToNumber: gives NaN where JavaScript gives a non-integer
  or an exponent form: `"1.5"`, `"1e3"`, `"Infinity"`. `-0` is read as 0.
  The exponent notation `String()` uses from 1e21 up is not modelled.
- JsValues.ReadProperty: built-in properties of primitives (`length`, methods) read as
  `undefined`.
- JSON serialization drops keys whose value is `undefined`. Objects here
  keep them; `Field` reads them back as `undefined` either way.
- Headers added by the frameworks, such as `Content-Type: application/json`,
  are not modelled. Only the headers the handlers set are.
- Vercel's `req.body` is always an object here: an absent body would throw
  on destructuring. Next bodies that parse to a non-object are not
  modelled either.
- A repeated `url` query parameter, which Vercel delivers as an array.
- An upstream image without a content type is not modelled: the type is
  always present.
- Scraper.ProxyUrlRoundTrip: reads the parameter with
  `decodeURIComponent`. The Next proxy uses `URLSearchParams`, which also
  turns `+` into a space. The encoding never emits `+`, so the two agree on
  rewritten URLs.
- `src/lib/scraper` is not part of this model: the Next scrape route calls
  it through the parameter `scrape`.

=== FILE: backend_routes.dfy ===
/** The Express backend's POST `/influencers` and POST `/scrape` routes. The
    request body is the object `express.json()` parsed; the `cors()`
    middleware puts an `Access-Control-Allow-Origin: *` header on every
    response. */
module BackendRoutes {
  import opened Basics
  import opened JsStrings
  import opened JsValues
  import opened Http
  import opened Database
  import opened Tags
  import opened Scraper

  const MissingFieldsMessage := "Nome completo e Instagram são obrigatórios."
  const DuplicateMessage := "Este @Instagram já foi cadastrado."
  const InsertFailedText := "Erro ao cadastrar influenciadora."
  const MissingHandleMessage := "O @instagram é obrigatório."
  const UnknownScrapeError := "Erro desconhecido durante o scraping."

  const CorsOrigin: map<string, string> := map["Access-Control-Allow-Origin" := "*"]

  /** The parameters of the backend's INSERT: four columns only. */
  datatype InsertRow = InsertRow(fullName: JsValue, instagram: JsValue, profileTags: seq<string>, notes: JsValue)

  /** `profile ? profile.split(',').map(tag => tag.trim()) : []`. A truthy
      value that is not a string has no `split`, so the call throws. */
  function ProfileTags(profile: JsValue): (r: Result<seq<string>, string>)
    ensures !Truthy(profile) ==> r == Ok([])
    ensures Truthy(profile) && profile.Str? ==> r == Ok(SplitTags(profile.s))
    ensures Truthy(profile) && !profile.Str? ==> r.Err?
  {
    if !Truthy(profile) then Ok([])
    else if profile.Str? then Ok(SplitTags(profile.s))
    else Err("profile.split is not a function")
  }

  /** POST `/influencers`. `insert` stands for the database. */
  function PostInfluencers(body: map<string, JsValue>, insert: InsertRow -> InsertOutcome): (x: Exchange<InsertRow>)
    ensures x.response.headers == CorsOrigin
    ensures x.response.status in {201, 400, 409, 500}
    ensures x.response.status == 400 <==> !Truthy(Field(body, "fullName")) || !Truthy(Field(body, "instagram"))
    ensures x.response.status == 400 ==> x.sent.None? && x.response.body == ErrorJson(MissingFieldsMessage)
    ensures x.sent.Some? <==>
      Truthy(Field(body, "fullName")) && Truthy(Field(body, "instagram")) && ProfileTags(Field(body, "profile")).Ok?
    ensures x.sent.Some? ==>
      x.sent.value == InsertRow(Field(body, "fullName"), Field(body, "instagram"),
                                ProfileTags(Field(body, "profile")).value, Field(body, "notes"))
    ensures x.response.status == 201 <==> x.sent.Some? && insert(x.sent.value).Inserted?
    ensures x.response.status == 201 ==> x.response.body == JsonBody(insert(x.sent.value).row)
    ensures x.response.status == 409 <==>
      x.sent.Some? && insert(x.sent.value).InsertFailed? && IsDuplicate(insert(x.sent.value).fault)
    ensures x.response.status == 409 ==> x.response.body == ErrorJson(DuplicateMessage)
    ensures x.response.status == 500 ==> x.response.body == TextBody(InsertFailedText)
  {
    var fullName := Field(body, "fullName");
    var instagram := Field(body, "instagram");
    if !Truthy(fullName) || !Truthy(instagram) then
      Exchange(None, Response(400, CorsOrigin, ErrorJson(MissingFieldsMessage)))
    else match ProfileTags(Field(body, "profile"))
      case Err(_) => Exchange(None, Response(500, CorsOrigin, TextBody(InsertFailedText)))
      case Ok(tags) =>
        var row := InsertRow(fullName, instagram, tags, Field(body, "notes"));
        match insert(row)
        case Inserted(r) => Exchange(Some(row), Response(201, CorsOrigin, JsonBody(r)))
        case InsertFailed(f) =>
          if IsDuplicate(f) then Exchange(Some(row), Response(409, CorsOrigin, ErrorJson(DuplicateMessage)))
          else Exchange(Some(row), Response(500, CorsOrigin, TextBody(InsertFailedText)))
  }

  /** The backend stores neither followers, nor the bio, nor the picture:
      changing them in the request changes nothing. */
  lemma PostInfluencersIgnoresProfileFields(body: map<string, JsValue>, key: string, v: JsValue,
                                            insert: InsertRow -> InsertOutcome)
    requires key in {"followers", "bio", "profilePicUrl"}
    ensures PostInfluencers(body[key := v], insert) == PostInfluencers(body, insert)
  {
    var body' := body[key := v];
    assert Field(body', "fullName") == Field(body, "fullName");
    assert Field(body', "instagram") == Field(body, "instagram");
    assert Field(body', "profile") == Field(body, "profile");
    assert Field(body', "notes") == Field(body, "notes");
  }

  /** A thrown value as the `/scrape` catch block sees it. */
  datatype Thrown = ErrorObject(message: string) | OtherValue(value: JsValue)

  /** `err instanceof Error ? err.message : 'Erro desconhecido ...'`: the
      fallback text shows exactly when the thrown value is not an `Error`
      (or is one carrying that very text); any other text reported is the
      `Error`'s own message. */
  function ThrownMessage(t: Thrown): (m: string)
    ensures m == UnknownScrapeError <==> t.OtherValue? || t.message == UnknownScrapeError
    ensures m != UnknownScrapeError ==> t.ErrorObject? && m == t.message
  {
    match t
    case ErrorObject(message) => message
    case OtherValue(_) => UnknownScrapeError
  }

  /** POST `/scrape`: reads `instagram` from the body and hands it to the
      scraper; `fetch` stands for the upstream. The exchange records the
      upstream URL requested. */
  function PostScrape(body: map<string, JsValue>, fetch: string -> Upstream): (x: Exchange<string>)
    ensures x.response.headers == CorsOrigin
    ensures !Truthy(Field(body, "instagram")) <==> x.response.status == 400
    ensures x.response.status == 400 ==> x.sent.None? && x.response.body == ErrorJson(MissingHandleMessage)
    ensures x.response.status != 400 ==> x.sent == Some(RequestUrl(Field(body, "instagram")))
    ensures x.response.status in {200, 400, 500}
    ensures x.response.status == 200 <==>
      Truthy(Field(body, "instagram")) && ScrapeInstagramProfile(Field(body, "instagram"), fetch).Ok?
    ensures x.response.status == 200 ==>
      x.response.body == JsonBody(ProfileJson(ScrapeInstagramProfile(Field(body, "instagram"), fetch).value))
    ensures x.response.status == 500 ==>
      x.response.body == ErrorJson(ScrapeInstagramProfile(Field(body, "instagram"), fetch).error)
  {
    var instagram := Field(body, "instagram");
    if !Truthy(instagram) then
      Exchange(None, Response(400, CorsOrigin, ErrorJson(MissingHandleMessage)))
    else match ScrapeInstagramProfile(instagram, fetch)
      case Ok(p) => Exchange(Some(RequestUrl(instagram)), Response(200, CorsOrigin, JsonBody(ProfileJson(p))))
      case Err(m) =>
        Exchange(Some(RequestUrl(instagram)), Response(500, CorsOrigin, ErrorJson(ThrownMessage(ErrorObject(m)))))
  }

  /** None of the scraper's three error classes is the fallback text. */
  lemma ScraperErrorIsNotFallback(m: string)
    requires m == TooManyRequestsMessage || m == NotFoundMessage || StartsWith(m, FetchErrorPrefix)
    ensures m != UnknownScrapeError
  {
    if StartsWith(m, FetchErrorPrefix) {
      assert m[5] != UnknownScrapeError[5];
    } else {
      assert |m| != |UnknownScrapeError|;
    }
  }

  /** The scraper only ever throws `Error` objects, so the fallback text for
      other thrown values never reaches a client of `/scrape`. */
  lemma ScrapeFallbackUnreachable(body: map<string, JsValue>, fetch: string -> Upstream)
    ensures ErrorField(PostScrape(body, fetch).response) != Str(UnknownScrapeError)
  {
    var x := PostScrape(body, fetch);
    if x.response.status == 500 {
      var m := ScrapeInstagramProfile(Field(body, "instagram"), fetch).error;
      ScraperErrorIsNotFallback(m);
      assert ErrorField(x.response) == Str(m);
    } else if x.response.status == 200 {
      assert "error" !in ProfileJson(ScrapeInstagramProfile(Field(body, "instagram"), fetch).value).fields;
    }
  }
}

=== FILE: basics.dfy ===
/** Failure-carrying values and octets shared by every module of the model. */
module Basics {

  /** A value that may be absent. */
  datatype Option<+T> = None | Some(value: T)

  /** The outcome of a step that may throw: `Err` carries what was thrown. */
  datatype Result<+T, +E> = Ok(value: T) | Err(error: E) {
    predicate IsFailure() {
      Err?
    }

    function PropagateFailure<U>(): Result<U, E>
      requires Err?
    {
      Err(error)
    }

    function Extract(): T
      requires Ok?
    {
      value
    }
  }

  /** An octet, as carried in a UTF-8 encoding or an image body. */
  type Byte = b: int | 0 <= b < 256
}

=== FILE: database.dfy ===
/** The database as the handlers see it: a query either returns rows or
    throws. SQL execution itself is outside the model. */
module Database {
  import opened JsValues

  /** The SQLSTATE code of a unique-constraint violation (a second row with
      the same `instagram`). */
  const UniqueViolation := "23505"

  /** Something a handler caught from a query: the `message`, `code` and
      `detail` its `catch` block reads (undefined when the thrown value has
      none). */
  datatype Fault = Fault(message: string, code: JsValue, detail: JsValue)

  /** `INSERT ... RETURNING *`: the inserted row, or the error thrown. */
  datatype InsertOutcome = Inserted(row: JsValue) | InsertFailed(fault: Fault)

  /** `SELECT * FROM influencers ORDER BY created_at DESC` */
  datatype SelectOutcome = Rows(rows: seq<JsValue>) | SelectFailed

  predicate IsDuplicate(f: Fault) {
    f.code == Str(UniqueViolation)
  }
}

=== FILE: form_schema.dfy ===
/** `influencerSchema` of the registration form and what `safeParse` makes
    of the form data, following zod 3: the fields are checked in the order
    the schema declares them; a value of the wrong type gets one type issue
    and no further checks; the string checks of a field all run, each
    failing one adding its issue; the `refine` runs after them. The
    `.url()` check is an input (`isUrl`). */
module FormSchema {
  import opened Basics
  import opened JsStrings
  import opened JsValues

  const NameTooShort := "O nome completo é obrigatório."
  const MustStartWithAt := "O Instagram deve começar com @."
  const HandleTooShort := "O @instagram é obrigatório."
  const HandleHasSpaces := "O Instagram não pode conter espaços."
  const InvalidUrl := "Invalid url"

  /** One validation failure: the field it concerns and its message. */
  datatype Issue = Issue(path: string, message: string)

  /** zod's name for the type of a value. */
  function ParsedType(v: JsValue): string {
    match v
    case Undefined => "undefined"
    case Null => "null"
    case Bool(_) => "boolean"
    case Num(_) => "number"
    case NaN => "nan"
    case Str(_) => "string"
    case Arr(_) => "array"
    case Obj(_) => "object"
  }

  /** The issue for a value of the wrong type: "Required" when it is missing. */
  function TypeIssue(path: string, expected: string, v: JsValue): Issue {
    Issue(path, if v.Undefined? then "Required" else "Expected " + expected + ", received " + ParsedType(v))
  }

  /** `z.string().min(3, ...)` */
  function FullNameIssues(v: JsValue): seq<Issue> {
    match v
    case Str(s) => if Utf16Length(s) < 3 then [Issue("fullName", NameTooShort)] else []
    case _ => [TypeIssue("fullName", "string", v)]
  }

  /** `z.string().startsWith('@', ...).min(2, ...).refine(no white space, ...)` */
  function InstagramIssues(v: JsValue): seq<Issue> {
    match v
    case Str(s) =>
      (if !StartsWith(s, "@") then [Issue("instagram", MustStartWithAt)] else [])
      + (if Utf16Length(s) < 2 then [Issue("instagram", HandleTooShort)] else [])
      + (if HasWhitespace(s) then [Issue("instagram", HandleHasSpaces)] else [])
    case _ => [TypeIssue("instagram", "string", v)]
  }

  /** `z.string().optional()` */
  function OptionalTextIssues(path: string, v: JsValue): seq<Issue> {
    if v.Undefined? || v.Str? then [] else [TypeIssue(path, "string", v)]
  }

  /** `z.number().optional()`; NaN is not a number to zod. */
  function FollowersIssues(v: JsValue): seq<Issue> {
    if v.Undefined? || v.Num? then [] else [TypeIssue("followers", "number", v)]
  }

  /** `z.string().url().optional()` */
  function PictureIssues(v: JsValue, isUrl: string -> bool): seq<Issue> {
    match v
    case Undefined => []
    case Str(s) => if isUrl(s) then [] else [Issue("profilePicUrl", InvalidUrl)]
    case _ => [TypeIssue("profilePicUrl", "string", v)]
  }

  /** Every issue of the form data, in the order zod reports them. */
  function Issues(data: map<string, JsValue>, isUrl: string -> bool): seq<Issue> {
    FullNameIssues(Field(data, "fullName"))
    + InstagramIssues(Field(data, "instagram"))
    + OptionalTextIssues("profile", Field(data, "profile"))
    + OptionalTextIssues("notes", Field(data, "notes"))
    + OptionalTextIssues("bio", Field(data, "bio"))
    + FollowersIssues(Field(data, "followers"))
    + PictureIssues(Field(data, "profilePicUrl"), isUrl)
  }

  /** The validated data (`result.data`). */
  datatype Valid = Valid(
    fullName: string,
    instagram: string,
    profile: JsValue,
    notes: JsValue,
    bio: JsValue,
    followers: JsValue,
    profilePicUrl: JsValue)

  /** A handle the schema accepts: starts with `@`, at least two UTF-16 code
      units, no white space. */
  predicate IsValidHandle(s: string) {
    StartsWith(s, "@") && Utf16Length(s) >= 2 && !HasWhitespace(s)
  }

  /** `influencerSchema.safeParse(data)`: the data when there is no issue,
      otherwise every issue. */
  function SafeParse(data: map<string, JsValue>, isUrl: string -> bool): (r: Result<Valid, seq<Issue>>)
    ensures r.Err? <==> |Issues(data, isUrl)| > 0
    ensures r.Err? ==> r.error == Issues(data, isUrl)
    ensures r.Ok? ==>
      && Field(data, "fullName") == Str(r.value.fullName) && Utf16Length(r.value.fullName) >= 3
      && Field(data, "instagram") == Str(r.value.instagram) && IsValidHandle(r.value.instagram)
      && r.value.profile == Field(data, "profile") && r.value.notes == Field(data, "notes")
      && r.value.bio == Field(data, "bio") && r.value.followers == Field(data, "followers")
      && r.value.profilePicUrl == Field(data, "profilePicUrl")
  {
    var issues := Issues(data, isUrl);
    if |issues| > 0 then Err(issues)
    else
      assert |FullNameIssues(Field(data, "fullName"))| == 0;
      assert |InstagramIssues(Field(data, "instagram"))| == 0;
      Ok(Valid(Field(data, "fullName").s, Field(data, "instagram").s, Field(data, "profile"),
               Field(data, "notes"), Field(data, "bio"), Field(data, "followers"), Field(data, "profilePicUrl")))
  }

  /** The handle field is accepted exactly when it is a string that starts
      with `@`, has length at least 2 and holds no white space. */
  lemma InstagramRule(v: JsValue)
    ensures InstagramIssues(v) == [] <==> v.Str? && IsValidHandle(v.s)
  {
  }

  /** A full name shorter than three characters is rejected with its message. */
  lemma ShortNameRejected(data: map<string, JsValue>, isUrl: string -> bool)
    requires Field(data, "fullName").Str? && Utf16Length(Field(data, "fullName").s) < 3
    ensures SafeParse(data, isUrl).Err?
    ensures Issue("fullName", NameTooShort) in SafeParse(data, isUrl).error
  {
    assert Issues(data, isUrl)[0] == Issue("fullName", NameTooShort);
  }

  /** The message of the last issue about field `p`, if there is one. */
  function LastMessage(issues: seq<Issue>, p: string): (r: Option<string>)
    ensures r.None? <==> forall i :: 0 <= i < |issues| ==> issues[i].path != p
    ensures r.Some? ==> issues[LastIndex(issues, p)] == Issue(p, r.value)
  {
    if |issues| == 0 then None
    else if issues[|issues| - 1].path == p then Some(issues[|issues| - 1].message)
    else
      var r := LastMessage(issues[..|issues| - 1], p);
      assert forall i :: 0 <= i < |issues| - 1 ==> issues[..|issues| - 1][i] == issues[i];
      r
  }

  /** The position of the last issue about field `p`. */
  function LastIndex(issues: seq<Issue>, p: string): (k: nat)
    requires exists i :: 0 <= i < |issues| && issues[i].path == p
    ensures k < |issues| && issues[k].path == p
    ensures forall j :: k < j < |issues| ==> issues[j].path != p
  {
    if issues[|issues| - 1].path == p then |issues| - 1
    else
      assert forall i :: 0 <= i < |issues| - 1 ==> issues[..|issues| - 1][i] == issues[i];
      LastIndex(issues[..|issues| - 1], p)
  }

  /** The per-field error map of the submit handler: one message per field,
      the last issue about a field overwriting the earlier ones. */
  function ErrorMap(issues: seq<Issue>): (m: map<string, string>)
    ensures forall p :: p in m <==> LastMessage(issues, p).Some?
    ensures forall p :: p in m ==> m[p] == LastMessage(issues, p).value
  {
    if |issues| == 0 then map[]
    else
      var last := issues[|issues| - 1];
      ErrorMap(issues[..|issues| - 1])[last.path := last.message]
  }
}

=== FILE: http.dfy ===
/** The shape of an HTTP response as the handlers build it: a status, the
    headers the handler itself sets, and a body. Headers a framework adds on
    its own (`Content-Type` for JSON, `Content-Length`) are not part of it. */
module Http {
  import opened Basics
  import opened JsValues

  datatype Body =
    | NoBody                      // `res.end()`
    | JsonBody(value: JsValue)    // `res.json(v)`, `NextResponse.json(v)`
    | TextBody(text: string)      // `res.send("...")`
    | BytesBody(bytes: seq<Byte>) // `res.send(buffer)`, `new NextResponse(buffer)`

  datatype Response = Response(status: int, headers: map<string, string>, body: Body)

  /** The permissive cross-origin headers every serverless handler sets,
      allowing the given methods. */
  function Cors(methods: string): (h: map<string, string>)
    ensures h.Keys == {"Access-Control-Allow-Origin", "Access-Control-Allow-Methods", "Access-Control-Allow-Headers"}
    ensures h["Access-Control-Allow-Origin"] == "*" && h["Access-Control-Allow-Methods"] == methods
    ensures h["Access-Control-Allow-Headers"] == "Content-Type"
  {
    map["Access-Control-Allow-Origin" := "*",
        "Access-Control-Allow-Methods" := methods,
        "Access-Control-Allow-Headers" := "Content-Type"]
  }

  /** The `OPTIONS` export of every Next route: an empty JSON object with
      the route's CORS headers. */
  function NextPreflight(methods: string): (r: Response)
    ensures r.status == 200 && r.headers == Cors(methods)
    ensures r.body.JsonBody? && r.body.value == Obj(map[])
  {
    Response(200, Cors(methods), JsonBody(Obj(map[])))
  }

  /** `{ error: message }` */
  function ErrorJson(message: string): Body {
    JsonBody(Obj(map["error" := Str(message)]))
  }

  /** The `error` field of a JSON response body, undefined when there is none. */
  function ErrorField(r: Response): JsValue {
    if r.body.JsonBody? && r.body.value.Obj? then Field(r.body.value.fields, "error") else Undefined
  }

  const MethodNotAllowed := "Método não permitido"

  /** What a handler did: the request it sent to its collaborator (the
      database INSERT, the upstream fetch), if it sent one, and the response
      it wrote. */
  datatype Exchange<Q> = Exchange(sent: Option<Q>, response: Response)

}

=== FILE: image_proxy.dfy ===
/** What the two image-proxy handlers share: the upstream image fetch as an
    input, and the headers of a successful answer. */
module ImageProxy {
  import opened Basics
  import opened Http

  const Methods := "GET, OPTIONS"
  const MissingUrlMessage := "URL da imagem não fornecida"
  const LoadFailedMessage := "Erro ao carregar imagem"
  const OneYear := "public, max-age=31536000"

  /** What the axios GET for the image produced: the bytes with the
      upstream `Content-Type`, or a thrown error. */
  datatype ImageOutcome = Image(contentType: string, bytes: seq<Byte>) | ImageFailed

  /** The CORS headers plus the upstream content type and a one-year cache
      lifetime. */
  function ImageHeaders(contentType: string): (h: map<string, string>)
    ensures h.Keys == Cors(Methods).Keys + {"Content-Type", "Cache-Control"}
    ensures h["Content-Type"] == contentType && h["Cache-Control"] == OneYear
    ensures forall k :: k in Cors(Methods) ==> k in h && h[k] == Cors(Methods)[k]
  {
    Cors(Methods)["Content-Type" := contentType]["Cache-Control" := OneYear]
  }
}

=== FILE: influencer_rows.dfy ===
/** The "create influencer" logic the two serverless variants share
    (`api/influencers.ts` and the Next route): validation, tag parsing,
    falsy-to-null coercion of the optional columns, and the mapping of the
    outcome to a response. */
module InfluencerRows {
  import opened Basics
  import opened JsStrings
  import opened JsValues
  import opened Http
  import opened Database
  import opened Tags

  const Methods := "GET, POST, OPTIONS"
  const MissingFieldsMessage := "Nome e Instagram são obrigatórios"
  const DuplicateMessage := "Já existe uma influenciadora cadastrada com este Instagram."
  const SaveFailedPrefix := "Erro ao salvar influenciadora: "
  const ListFailedMessage := "Erro ao buscar influenciadoras."
  /** The TypeError message Node gives for `profile.split(...)` on a value
      without `split`. */
  const SplitNotAFunction := "profile.split is not a function"

  /** The parameters of the INSERT, in column order. */
  datatype Row = Row(
    fullName: JsValue,
    instagram: JsValue,
    followers: JsValue,
    bio: JsValue,
    profilePicUrl: JsValue,
    profileTags: JsValue,
    notes: JsValue)

  /** `v || null`: the value is kept or replaced by null, its truthiness is
      unchanged, and null is the only falsy value that comes out. */
  function OrNull(v: JsValue): (r: JsValue)
    ensures r == v || r == Null
    ensures Truthy(r) <==> Truthy(v)
    ensures !Truthy(r) ==> r.Null?
  {
    if Truthy(v) then v else Null
  }

  /** `profile ? (Array.isArray(profile) ? profile : profile.split(',')...) : null`.
      A truthy value that is neither an array nor a string has no `split`,
      so the call throws. */
  function ProfileTags(profile: JsValue): (r: Result<JsValue, Fault>)
    ensures !Truthy(profile) ==> r == Ok(Null)
    ensures profile.Arr? ==> r == Ok(profile)
    ensures Truthy(profile) && profile.Str? ==>
      && r.Ok? && r.value.Arr?
      && |r.value.items| == |SplitTags(profile.s)|
      && forall i :: 0 <= i < |r.value.items| ==> r.value.items[i] == Str(SplitTags(profile.s)[i])
    ensures Truthy(profile) && !profile.Str? && !profile.Arr? ==>
      r == Err(Fault(SplitNotAFunction, Undefined, Undefined))
  {
    if !Truthy(profile) then Ok(Null)
    else if profile.Arr? then Ok(profile)
    else if profile.Str? then
      var tags := SplitTags(profile.s);
      Ok(Arr(seq(|tags|, i requires 0 <= i < |tags| => Str(tags[i]))))
    else Err(Fault(SplitNotAFunction, Undefined, Undefined))
  }

  /** What the POST logic ends in, before it is written as a response. */
  datatype Outcome = Created(row: JsValue) | Invalid | Threw(fault: Fault)

  /** The POST logic: the INSERT it sends (if any) and its outcome. */
  function Post(body: map<string, JsValue>, insert: Row -> InsertOutcome): (x: (Option<Row>, Outcome))
    ensures x.1 == Invalid <==> !Truthy(Field(body, "fullName")) || !Truthy(Field(body, "instagram"))
    ensures x.1 == Invalid ==> x.0.None?
    ensures x.0.Some? <==> x.1 != Invalid && ProfileTags(Field(body, "profile")).Ok?
    ensures x.0.Some? ==>
      x.0.value == Row(Field(body, "fullName"), Field(body, "instagram"),
                       OrNull(Field(body, "followers")), OrNull(Field(body, "bio")),
                       OrNull(Field(body, "profilePicUrl")), ProfileTags(Field(body, "profile")).value,
                       OrNull(Field(body, "notes")))
    ensures x.1.Created? <==> x.0.Some? && insert(x.0.value).Inserted?
    ensures x.1.Created? ==> x.1.row == insert(x.0.value).row
    ensures x.1.Threw? && x.0.Some? ==> insert(x.0.value) == InsertFailed(x.1.fault)
    ensures x.1 != Invalid && ProfileTags(Field(body, "profile")).Err? ==>
      x == (None, Threw(ProfileTags(Field(body, "profile")).error))
  {
    var fullName := Field(body, "fullName");
    var instagram := Field(body, "instagram");
    if !Truthy(fullName) || !Truthy(instagram) then (None, Invalid)
    else match ProfileTags(Field(body, "profile"))
      case Err(f) => (None, Threw(f))
      case Ok(tags) =>
        var row := Row(fullName, instagram, OrNull(Field(body, "followers")), OrNull(Field(body, "bio")),
                       OrNull(Field(body, "profilePicUrl")), tags, OrNull(Field(body, "notes")));
        match insert(row)
        case Inserted(r) => (Some(row), Created(r))
        case InsertFailed(f) => (Some(row), Threw(f))
  }

  /** Zero followers is falsy, so it is stored as null. */
  lemma ZeroFollowersStoredAsNull(body: map<string, JsValue>, insert: Row -> InsertOutcome)
    requires Field(body, "followers") == Num(0)
    requires Post(body, insert).0.Some?
    ensures Post(body, insert).0.value.followers == Null
  {
  }

  /** `{ error, detail, code }` of the catch block. */
  function FaultJson(message: string, f: Fault): JsValue {
    Obj(map["error" := Str(message), "detail" := f.detail, "code" := f.code])
  }

  /** The response for a POST outcome: 201 with the row; 400 for missing
      fields and for a duplicate `instagram`; 500 with the prefixed message
      otherwise. */
  function PostResponse(o: Outcome, headers: map<string, string>): (r: Response)
    ensures r.headers == headers
    ensures r.status == 201 <==> o.Created?
    ensures o.Created? ==> r.body == JsonBody(o.row)
    ensures o == Invalid ==> r.status == 400 && r.body == ErrorJson(MissingFieldsMessage)
    ensures o.Threw? && IsDuplicate(o.fault) ==>
      r.status == 400 && r.body == JsonBody(FaultJson(DuplicateMessage, o.fault))
    ensures o.Threw? && !IsDuplicate(o.fault) ==>
      r.status == 500 && r.body == JsonBody(FaultJson(SaveFailedPrefix + o.fault.message, o.fault))
  {
    match o
    case Created(row) => Response(201, headers, JsonBody(row))
    case Invalid => Response(400, headers, ErrorJson(MissingFieldsMessage))
    case Threw(f) =>
      if IsDuplicate(f) then Response(400, headers, JsonBody(FaultJson(DuplicateMessage, f)))
      else Response(500, headers, JsonBody(FaultJson(SaveFailedPrefix + f.message, f)))
  }

  /** The response to the listing query. */
  function ListResponse(select: SelectOutcome, headers: map<string, string>): (r: Response)
    ensures r.headers == headers
    ensures select.Rows? ==> r.status == 200 && r.body == JsonBody(Arr(select.rows))
    ensures select.SelectFailed? ==> r.status == 500 && r.body == ErrorJson(ListFailedMessage)
  {
    match select
    case Rows(rows) => Response(200, headers, JsonBody(Arr(rows)))
    case SelectFailed => Response(500, headers, ErrorJson(ListFailedMessage))
  }
}

=== FILE: js_strings.dfy ===
/** The string operations of JavaScript the application relies on: white space
    as `\s` and `String.prototype.trim` see it, `trim`, `split` on one
    character, `.length` in UTF-16 code units, and integer text. */
module JsStrings {
  import opened Basics

  /** WhiteSpace and LineTerminator code points of ECMA-262 (sections 12.2
      and 12.3): the set matched by `\s` and removed by `trim`. */
  predicate IsWhitespace(c: char) {
    var n := c as int;
    n == 0x09 || n == 0x0A || n == 0x0B || n == 0x0C || n == 0x0D || n == 0x20
    || n == 0xA0 || n == 0x1680 || (0x2000 <= n <= 0x200A) || n == 0x2028
    || n == 0x2029 || n == 0x202F || n == 0x205F || n == 0x3000 || n == 0xFEFF
  }

  /** `/\s/.test(s)` */
  predicate HasWhitespace(s: string) {
    exists i :: 0 <= i < |s| && IsWhitespace(s[i])
  }

  predicate AllWhitespace(s: string) {
    forall i :: 0 <= i < |s| ==> IsWhitespace(s[i])
  }

  /** Number of leading white-space characters. */
  function LeadingWhitespace(s: string): (k: nat)
    ensures k <= |s|
    ensures AllWhitespace(s[..k])
    ensures k < |s| ==> !IsWhitespace(s[k])
  {
    if |s| == 0 || !IsWhitespace(s[0]) then 0
    else
      var k := 1 + LeadingWhitespace(s[1..]);
      assert s[..k] == [s[0]] + s[1..][..k - 1];
      k
  }

  /** Number of trailing white-space characters. */
  function TrailingWhitespace(s: string): (k: nat)
    ensures k <= |s|
    ensures AllWhitespace(s[|s| - k..])
    ensures k < |s| ==> !IsWhitespace(s[|s| - k - 1])
  {
    if |s| == 0 || !IsWhitespace(s[|s| - 1]) then 0
    else
      var t := s[..|s| - 1];
      var j := TrailingWhitespace(t);
      var tail := s[|s| - (j + 1)..];
      assert AllWhitespace(tail) by {
        forall i | 0 <= i < |tail|
          ensures IsWhitespace(tail[i])
        {
          if i < j {
            assert tail[i] == t[|t| - j..][i];
          }
        }
      }
      assert j + 1 < |s| ==> s[|s| - (j + 1) - 1] == t[|t| - j - 1];
      j + 1
  }

  /** The slice `s[lo..hi]` that `trim` keeps: everything outside it is white
      space, and when it is not empty it starts and ends with a non-white
      character. When `s` holds a non-white character these facts determine
      `lo` and `hi`; otherwise the kept slice is empty. */
  function TrimBounds(s: string): (b: (nat, nat))
    ensures b.0 <= b.1 <= |s|
    ensures AllWhitespace(s[..b.0]) && AllWhitespace(s[b.1..])
    ensures b.0 < b.1 ==> !IsWhitespace(s[b.0]) && !IsWhitespace(s[b.1 - 1])
    ensures b.0 == b.1 ==> AllWhitespace(s)
  {
    var lo := LeadingWhitespace(s);
    if lo == |s| then
      assert s[..lo] == s;
      (lo, lo)
    else
      var k := TrailingWhitespace(s[lo..]);
      TrailingAfterNonWhite(s, lo);
      (lo, |s| - k)
  }

  /** Past a non-white character at `lo`, the trailing white space of
      `s[lo..]` is the trailing white space of `s`, and stops short of `lo`. */
  lemma TrailingAfterNonWhite(s: string, lo: nat)
    requires lo < |s| && !IsWhitespace(s[lo])
    ensures var k := TrailingWhitespace(s[lo..]);
      && lo < |s| - k
      && AllWhitespace(s[|s| - k..])
      && !IsWhitespace(s[|s| - k - 1])
  {
    var t := s[lo..];
    var k := TrailingWhitespace(t);
    assert k < |t| by {
      assert t[0] == s[lo];
      assert AllWhitespace(t[|t| - k..]);
    }
    assert s[|s| - k..] == t[|t| - k..];
    assert s[|s| - k - 1] == t[|t| - k - 1];
  }

  /** `s.trim()` */
  function Trim(s: string): string {
    s[TrimBounds(s).0..TrimBounds(s).1]
  }

  /** Trimming a trimmed string changes nothing. */
  lemma TrimIdempotent(s: string)
    ensures Trim(Trim(s)) == Trim(s)
  {
    var t := Trim(s);
    if |t| > 0 {
      NoEdgeWhitespaceTrimsToItself(t);
    }
  }

  /** A string that neither starts nor ends with white space is its own trim. */
  lemma NoEdgeWhitespaceTrimsToItself(s: string)
    requires |s| > 0 ==> !IsWhitespace(s[0]) && !IsWhitespace(s[|s| - 1])
    ensures Trim(s) == s
  {
    var b := TrimBounds(s);
  }

  /** Number of occurrences of `c` in `s`. */
  function Count(s: string, c: char): nat {
    if |s| == 0 then 0 else (if s[0] == c then 1 else 0) + Count(s[1..], c)
  }

  /** `s.split(sep)` for a one-character separator: the pieces between
      separators, empty pieces included (`"".split(",")` is `[""]`). */
  function Split(s: string, sep: char): (pieces: seq<string>)
    ensures |pieces| >= 1
  {
    if |s| == 0 then [""]
    else
      var rest := Split(s[1..], sep);
      if s[0] == sep then [""] + rest
      else [[s[0]] + rest[0]] + rest[1..]
  }

  /** `pieces.join(sep)` */
  function Join(pieces: seq<string>, sep: char): string
    requires |pieces| >= 1
  {
    if |pieces| == 1 then pieces[0] else pieces[0] + [sep] + Join(pieces[1..], sep)
  }

  /** Splitting yields one more piece than there are separators. */
  lemma {:induction false} SplitCount(s: string, sep: char)
    ensures |Split(s, sep)| == Count(s, sep) + 1
  {
    if |s| > 0 {
      SplitCount(s[1..], sep);
    }
  }

  /** No piece of a split contains the separator. */
  lemma {:induction false} SplitPiecesHaveNoSeparator(s: string, sep: char)
    ensures forall i :: 0 <= i < |Split(s, sep)| ==> Count(Split(s, sep)[i], sep) == 0
  {
    if |s| > 0 {
      SplitPiecesHaveNoSeparator(s[1..], sep);
      var rest := Split(s[1..], sep);
      if s[0] != sep {
        assert ([s[0]] + rest[0])[1..] == rest[0];
      }
    }
  }

  /** Joining the pieces with the separator gives back the original text. */
  lemma {:induction false} SplitJoin(s: string, sep: char)
    ensures Join(Split(s, sep), sep) == s
  {
    if |s| > 0 {
      SplitJoin(s[1..], sep);
      var rest := Split(s[1..], sep);
      if s[0] == sep {
        assert Join([""] + rest, sep) == "" + [sep] + Join(rest, sep);
      } else {
        var p := [[s[0]] + rest[0]] + rest[1..];
        if |rest| == 1 {
          assert Join(p, sep) == [s[0]] + rest[0];
        } else {
          assert p[1..] == rest[1..];
          assert Join(p, sep) == [s[0]] + rest[0] + [sep] + Join(rest[1..], sep);
        }
      }
    }
  }

  /** Number of UTF-16 code units of one character. */
  function CodeUnits(c: char): nat {
    if c as int >= 0x10000 then 2 else 1
  }

  /** JavaScript's `s.length`: characters outside the Basic Multilingual
      Plane count twice. */
  function Utf16Length(s: string): (n: nat)
    ensures |s| <= n <= 2 * |s|
    ensures n == 0 <==> |s| == 0
    ensures n == |s| <==> forall i :: 0 <= i < |s| ==> s[i] as int < 0x10000
    ensures n == 2 * |s| <==> forall i :: 0 <= i < |s| ==> s[i] as int >= 0x10000
  {
    if |s| == 0 then 0
    else
      assert forall i :: 1 <= i < |s| ==> s[i] == s[1..][i - 1];
      CodeUnits(s[0]) + Utf16Length(s[1..])
  }

  /** Appending a character adds one code unit, or two for a character
      outside the Basic Multilingual Plane. */
  lemma {:induction false} Utf16LengthAppend(s: string, c: char)
    ensures Utf16Length(s + [c]) == Utf16Length(s) + (if c as int >= 0x10000 then 2 else 1)
  {
    if |s| > 0 {
      assert (s + [c])[1..] == s[1..] + [c];
      Utf16LengthAppend(s[1..], c);
    }
  }

  /** `s.startsWith(prefix)` */
  predicate StartsWith(s: string, prefix: string) {
    |prefix| <= |s| && s[..|prefix|] == prefix
  }

  predicate IsDigit(c: char) {
    '0' <= c <= '9'
  }

  predicate AllDigits(s: string) {
    forall i :: 0 <= i < |s| ==> IsDigit(s[i])
  }

  function DigitChar(d: nat): (c: char)
    requires d < 10
    ensures IsDigit(c) && c as int - '0' as int == d
  {
    ('0' as int + d) as char
  }

  /** Decimal text of a natural number, without leading zeros. */
  function NatToDecimal(n: nat): (s: string)
    ensures |s| >= 1 && AllDigits(s)
  {
    if n < 10 then [DigitChar(n)] else NatToDecimal(n / 10) + [DigitChar(n % 10)]
  }

  /** `String(n)` for an integer `n`. */
  function IntToDecimal(n: int): (s: string)
    ensures |s| >= 1 && !IsWhitespace(s[0]) && !IsWhitespace(s[|s| - 1])
  {
    if n < 0 then "-" + NatToDecimal(-n) else NatToDecimal(n)
  }

  /** Value of a string of decimal digits, most significant first. */
  function DigitsValue(s: string): nat
    requires AllDigits(s)
  {
    if |s| == 0 then 0 else 10 * DigitsValue(s[..|s| - 1]) + (s[|s| - 1] as int - '0' as int)
  }

  /** An optionally signed run of decimal digits, as a JavaScript numeric
      literal with an integer value. */
  function ParseInteger(s: string): (r: Option<int>)
    ensures r.Some? ==> |s| >= 1
  {
    if |s| >= 2 && (s[0] == '-' || s[0] == '+') && AllDigits(s[1..]) then
      var v: int := DigitsValue(s[1..]);
      Some(if s[0] == '-' then -v else v)
    else if |s| >= 1 && AllDigits(s) then Some(DigitsValue(s))
    else None
  }

  /** The value of a digit in base 2, 8, 10 or 16, either case for letters. */
  function RadixDigit(c: char, radix: nat): (d: Option<nat>)
    ensures d.Some? ==> d.value < radix
  {
    var v: int :=
      if '0' <= c <= '9' then c as int - '0' as int
      else if 'a' <= c <= 'f' then c as int - 'a' as int + 10
      else if 'A' <= c <= 'F' then c as int - 'A' as int + 10
      else radix;
    if v < radix then Some(v) else None
  }

  /** Value of a run of digits in the given base, most significant first;
      `None` when some character is not a digit of that base. */
  function RadixValue(ds: string, radix: nat): (r: Option<nat>)
    ensures r.Some? <==> forall i :: 0 <= i < |ds| ==> RadixDigit(ds[i], radix).Some?
  {
    if |ds| == 0 then Some(0)
    else
      assert forall i :: 0 <= i < |ds| - 1 ==> ds[..|ds| - 1][i] == ds[i];
      match RadixValue(ds[..|ds| - 1], radix)
      case None => None
      case Some(high) =>
        match RadixDigit(ds[|ds| - 1], radix)
        case None => None
        case Some(low) => Some(high * radix + low)
  }

  /** The NonDecimalIntegerLiteral forms `0x…`, `0b…` and `0o…` (either
      case, unsigned, at least one digit). */
  function NonDecimalInteger(s: string): (r: Option<int>)
    ensures r.Some? ==> |s| > 2 && s[0] == '0'
    ensures r.Some? ==> '.' !in s
  {
    if |s| > 2 && s[0] == '0' then
      var radix := if s[1] in "xX" then 16 else if s[1] in "bB" then 2 else if s[1] in "oO" then 8 else 0;
      if radix == 0 then None
      else match RadixValue(s[2..], radix)
        case None => None
        case Some(v) => Some(v)
    else None
  }

  predicate AllZeros(s: string) {
    forall i :: 0 <= i < |s| ==> s[i] == '0'
  }

  /** An optionally signed decimal literal with a point and only zeros after
      it (`5.`, `-5.00`, `.0`): digits on at least one side of the point,
      and an integer value. */
  function ZeroFraction(s: string): (r: Option<int>)
    ensures r.Some? ==> '.' in s
  {
    var body := if |s| > 0 && (s[0] == '-' || s[0] == '+') then s[1..] else s;
    var pieces := Split(body, '.');
    SplitCount(body, '.');
    CountedIsPresent(body, '.');
    if |pieces| == 2 && AllDigits(pieces[0]) && AllZeros(pieces[1]) && |pieces[0]| + |pieces[1]| > 0 then
      var v: int := DigitsValue(pieces[0]);
      assert |s| > 0 && (s[0] == '-' || s[0] == '+') ==> s == [s[0]] + body;
      Some(if |s| > 0 && s[0] == '-' then -v else v)
    else None
  }

  /** A character that is counted occurs. */
  lemma {:induction false} CountedIsPresent(s: string, c: char)
    ensures Count(s, c) > 0 ==> c in s
  {
    if |s| > 0 && s[0] != c {
      CountedIsPresent(s[1..], c);
    }
  }

  lemma {:induction false} NatToDecimalValue(n: nat)
    ensures DigitsValue(NatToDecimal(n)) == n
  {
    if n >= 10 {
      NatToDecimalValue(n / 10);
      var s := NatToDecimal(n);
      assert s[..|s| - 1] == NatToDecimal(n / 10);
    }
  }

  /** Reading back the decimal text of an integer gives the integer. */
  lemma IntToDecimalRoundTrip(n: int)
    ensures ParseInteger(IntToDecimal(n)) == Some(n)
  {
    if n < 0 {
      NatToDecimalValue(-n);
      assert IntToDecimal(n)[1..] == NatToDecimal(-n);
    } else {
      NatToDecimalValue(n);
    }
  }
}

=== FILE: js_values.dfy ===
/** The JavaScript values that flow through request bodies, upstream JSON and
    form state, with the coercions the application applies to them:
    truthiness, property reads, `String(v)` and `Number(v)`. Numbers are
    integers here, with `NaN` kept as its own value because `Number()` can
    produce it. */
module JsValues {
  import opened Basics
  import opened JsStrings

  datatype JsValue =
    | Undefined
    | Null
    | Bool(b: bool)
    | Num(n: int)
    | NaN
    | Str(s: string)
    | Arr(items: seq<JsValue>)
    | Obj(fields: map<string, JsValue>)

  /** `!!v`: undefined, null, false, 0, NaN and "" are falsy; every array
      and object is truthy. */
  predicate Truthy(v: JsValue) {
    match v
    case Undefined => false
    case Null => false
    case Bool(b) => b
    case Num(n) => n != 0
    case NaN => false
    case Str(s) => |s| > 0
    case Arr(_) => true
    case Obj(_) => true
  }

  /** The falsy values, listed: exactly six values are falsy. */
  lemma FalsyValues(v: JsValue)
    ensures !Truthy(v) <==> v in {Undefined, Null, Bool(false), Num(0), NaN, Str("")}
  {
  }

  /** Outside text and compound values, truthiness is that of the number
      the value converts to: a non-zero number. */
  lemma TruthyIsNonZeroNumber(v: JsValue)
    requires !v.Str? && !v.Arr? && !v.Obj?
    ensures Truthy(v) <==> ToNumber(v).Num? && ToNumber(v).n != 0
  {
  }

  /** `fields[key]` on a plain object: a missing key reads as undefined. */
  function Field(fields: map<string, JsValue>, key: string): (v: JsValue)
    ensures key !in fields ==> v == Undefined
  {
    if key in fields then fields[key] else Undefined
  }

  /** Property read `v.key`. Undefined and null throw a TypeError (with the
      message Node's engine gives); an object yields its field; the other
      values have none of the application's keys, so they yield undefined. */
  function ReadProperty(v: JsValue, key: string): (r: Result<JsValue, string>)
    ensures r.Err? <==> v.Undefined? || v.Null?
    ensures v.Undefined? ==> r == Err("Cannot read properties of undefined (reading '" + key + "')")
    ensures v.Null? ==> r == Err("Cannot read properties of null (reading '" + key + "')")
    ensures v.Obj? ==> r == Ok(Field(v.fields, key))
  {
    match v
    case Undefined => Err("Cannot read properties of undefined (reading '" + key + "')")
    case Null => Err("Cannot read properties of null (reading '" + key + "')")
    case Obj(fields) => Ok(Field(fields, key))
    case _ => Ok(Undefined)
  }

  /** `String(v)`, as template interpolation and `encodeURIComponent` apply
      it. An array prints its elements joined by commas, with undefined and
      null elements printed as nothing. */
  function ToString(v: JsValue): (s: string)
    ensures v.Str? ==> s == v.s
    ensures v.Num? ==> s == IntToDecimal(v.n) && ParseInteger(s) == Some(v.n)
    ensures v == Undefined ==> s == "undefined"
    ensures v == Null ==> s == "null"
    ensures v.Bool? ==> s == (if v.b then "true" else "false")
    ensures v == NaN ==> s == "NaN"
    ensures v.Obj? ==> s == "[object Object]"
    ensures v.Arr? && |v.items| == 0 ==> s == ""
    ensures v.Arr? && |v.items| == 1 && v.items[0].Str? ==> s == v.items[0].s
    decreases v
  {
    match v
    case Undefined => "undefined"
    case Null => "null"
    case Bool(b) => if b then "true" else "false"
    case Num(n) => IntToDecimalRoundTrip(n); IntToDecimal(n)
    case NaN => "NaN"
    case Str(s) => s
    case Arr(items) =>
      if |items| == 0 then ""
      else Join(seq(|items|, i requires 0 <= i < |items| =>
                      if items[i].Undefined? || items[i].Null? then "" else ToString(items[i])), ',')
    case Obj(_) => "[object Object]"
  }

  /** JavaScript's StringToNumber restricted to literals with an integer
      value: the text is trimmed; empty text is 0; an optionally signed run
      of decimal digits is its value, as is one followed by a point and only
      zeros; `0x`, `0b` and `0o` literals are read in their base; anything
      else is NaN. */
  function StringToNumber(s: string): (v: JsValue)
    ensures v.Num? || v.NaN?
    ensures |Trim(s)| == 0 ==> v == Num(0)
    ensures ParseInteger(Trim(s)).Some? ==> v == Num(ParseInteger(Trim(s)).value)
    ensures NonDecimalInteger(Trim(s)).Some? ==> v == Num(NonDecimalInteger(Trim(s)).value)
    ensures ZeroFraction(Trim(s)).Some? ==> v == Num(ZeroFraction(Trim(s)).value)
    ensures
      && |Trim(s)| > 0 && ParseInteger(Trim(s)).None?
      && NonDecimalInteger(Trim(s)).None? && ZeroFraction(Trim(s)).None?
      ==> v == NaN
  {
    var t := Trim(s);
    if |t| == 0 then Num(0)
    else match ParseInteger(t)
      case Some(n) => Num(n)
      case None =>
        match NonDecimalInteger(t)
        case Some(n) => Num(n)
        case None =>
          match ZeroFraction(t)
          case Some(n) => Num(n)
          case None => NaN
  }

  /** `Number(v)` */
  function ToNumber(v: JsValue): (r: JsValue)
    ensures r.Num? || r.NaN?
    ensures v.Num? ==> r == v
    ensures v.Str? ==> r == StringToNumber(v.s)
    ensures v == Undefined || v == NaN || v.Obj? ==> r == NaN
    ensures v == Null ==> r == Num(0)
    ensures v.Bool? ==> r == Num(if v.b then 1 else 0)
    ensures v.Arr? ==> r == StringToNumber(ToString(v))
    decreases v
  {
    match v
    case Undefined => NaN
    case Null => Num(0)
    case Bool(b) => Num(if b then 1 else 0)
    case Num(_) => v
    case NaN => NaN
    case Str(s) => StringToNumber(s)
    case Arr(_) => StringToNumber(ToString(v))
    case Obj(_) => NaN
  }

  /** A text that `trim` keeps whole and that reads as a non-decimal
      literal is that literal's value. */
  lemma NonDecimalText(t: string, n: int)
    requires |t| > 0 && !IsWhitespace(t[0]) && !IsWhitespace(t[|t| - 1])
    requires NonDecimalInteger(t) == Some(n)
    ensures ToNumber(Str(t)) == Num(n)
  {
    NoEdgeWhitespaceTrimsToItself(t);
  }

  /** A text that `trim` keeps whole and that reads as a decimal with a
      zero fraction is that decimal's integer value. */
  lemma ZeroFractionText(t: string, n: int)
    requires |t| > 0 && !IsWhitespace(t[0]) && !IsWhitespace(t[|t| - 1])
    requires ZeroFraction(t) == Some(n)
    ensures ToNumber(Str(t)) == Num(n)
  {
    NoEdgeWhitespaceTrimsToItself(t);
  }

  /** `Number("0x10")` is 16. */
  lemma HexLiteral()
    ensures ToNumber(Str("0x10")) == Num(16)
  {
    assert RadixValue("1", 16) == Some(1) by {
      assert "1"[..0] == "";
      assert RadixDigit('1', 16) == Some(1);
    }
    assert RadixValue("10", 16) == Some(16) by {
      assert "10"[..1] == "1";
      assert RadixDigit('0', 16) == Some(0);
    }
    assert NonDecimalInteger("0x10") == Some(16) by {
      assert "0x10"[1] in "xX" && "0x10"[2..] == "10";
    }
    NonDecimalText("0x10", 16);
  }

  /** `Number("0b11")` is 3. */
  lemma BinaryLiteral()
    ensures ToNumber(Str("0b11")) == Num(3)
  {
    assert RadixValue("1", 2) == Some(1) by {
      assert "1"[..0] == "";
      assert RadixDigit('1', 2) == Some(1);
    }
    assert RadixValue("11", 2) == Some(3) by {
      assert "11"[..1] == "1";
      assert RadixDigit('1', 2) == Some(1);
    }
    assert NonDecimalInteger("0b11") == Some(3) by {
      assert !("0b11"[1] in "xX") && "0b11"[1] in "bB" && "0b11"[2..] == "11";
    }
    NonDecimalText("0b11", 3);
  }

  /** `Number("5.")` is 5. */
  lemma TrailingPointLiteral()
    ensures ToNumber(Str("5.")) == Num(5)
  {
    assert Split("5.", '.') == ["5", ""] by {
      assert "5."[1..] == ".";
      assert Split(".", '.') == ["", ""] by {
        assert "."[1..] == "";
      }
      assert ['5'] + "" == "5";
    }
    assert DigitsValue("5") == 5 by {
      assert "5"[..0] == "";
    }
    assert ZeroFraction("5.") == Some(5) by {
      assert !("5."[0] == '-' || "5."[0] == '+');
      assert AllDigits("5") && AllZeros("");
    }
    ZeroFractionText("5.", 5);
  }

  /** `Number(String(n)) === n` for every integer. */
  lemma NumberOfStringRoundTrip(n: int)
    ensures ToNumber(Str(ToString(Num(n)))) == Num(n)
    ensures ToNumber(Str(IntToDecimal(n))) == Num(n)
  {
    var s := IntToDecimal(n);
    NoEdgeWhitespaceTrimsToItself(s);
    IntToDecimalRoundTrip(n);
  }
}

=== FILE: next_influencers.dfy ===
/** `src/app/api/influencers/route.ts`: the same logic as a Next route, one
    exported function per method, with the CORS headers on every response.
    Next answers other methods with 405 itself; OPTIONS is
    `NextPreflight(Methods)`. */
module NextInfluencers {
  import opened Basics
  import opened JsValues
  import opened Http
  import opened Database
  import opened InfluencerRows

  function Get(select: SelectOutcome): (r: Response)
    ensures r.headers == Cors(Methods)
    ensures select.Rows? ==> r.status == 200 && r.body == JsonBody(Arr(select.rows))
    ensures select.SelectFailed? ==> r.status == 500 && r.body == ErrorJson(ListFailedMessage)
  {
    ListResponse(select, Cors(Methods))
  }

  /** POST, given what `request.json()` produced: the parsed object, or the
      message of the error it threw (which the catch block reports like any
      other failure). */
  function Post(parsed: Result<map<string, JsValue>, string>, insert: Row -> InsertOutcome): (x: Exchange<Row>)
    ensures x.response.headers == Cors(Methods)
    ensures parsed.Err? ==>
      x.sent.None? && x.response.status == 500 && ErrorField(x.response) == Str(SaveFailedPrefix + parsed.error)
    ensures parsed.Ok? && (!Truthy(Field(parsed.value, "fullName")) || !Truthy(Field(parsed.value, "instagram"))) ==>
      x.response.status == 400 && x.response.body == ErrorJson(MissingFieldsMessage) && x.sent.None?
    ensures x.sent.Some? ==> parsed.Ok?
    ensures parsed.Ok? ==>
      && x.sent == InfluencerRows.Post(parsed.value, insert).0
      && x.response == PostResponse(InfluencerRows.Post(parsed.value, insert).1, Cors(Methods))
    ensures parsed.Ok? ==>
      (x.sent.Some? <==> Truthy(Field(parsed.value, "fullName")) && Truthy(Field(parsed.value, "instagram"))
                         && ProfileTags(Field(parsed.value, "profile")).Ok?)
    ensures parsed.Ok? && Truthy(Field(parsed.value, "fullName")) && Truthy(Field(parsed.value, "instagram"))
            && ProfileTags(Field(parsed.value, "profile")).Err? ==>
      x.response.status == 500 && ErrorField(x.response) == Str(SaveFailedPrefix + SplitNotAFunction)
    ensures x.response.status == 201 ==> x.response.body == JsonBody(insert(x.sent.value).row)
    ensures x.response.status == 201 <==> x.sent.Some? && insert(x.sent.value).Inserted?
    ensures x.sent.Some? && insert(x.sent.value).InsertFailed? ==>
      var f := insert(x.sent.value).fault;
      if IsDuplicate(f) then x.response.status == 400 && ErrorField(x.response) == Str(DuplicateMessage)
      else x.response.status == 500 && ErrorField(x.response) == Str(SaveFailedPrefix + f.message)
  {
    match parsed
    case Err(m) => Exchange(None, PostResponse(Threw(Fault(m, Undefined, Undefined)), Cors(Methods)))
    case Ok(body) =>
      var (sent, outcome) := InfluencerRows.Post(body, insert);
      Exchange(sent, PostResponse(outcome, Cors(Methods)))
  }
}

=== FILE: next_proxy_image.dfy ===
/** `src/app/api/proxy-image/route.ts`: the image proxy as a Next route,
    with the CORS headers on every response; OPTIONS is
    `NextPreflight(Methods)`. */
module NextProxyImage {
  import opened Basics
  import opened Http
  import opened ImageProxy

  /** GET; `url` is `searchParams.get('url')`, `None` for null. */
  function Get(url: Option<string>, fetch: string -> ImageOutcome): (x: Exchange<string>)
    ensures Cors(Methods).Keys <= x.response.headers.Keys
    ensures url.None? || url.value == "" ==>
      x.response == Response(400, Cors(Methods), ErrorJson(MissingUrlMessage)) && x.sent.None?
    ensures x.sent.Some? <==> url.Some? && url.value != ""
    ensures x.sent.Some? ==> x.sent.value == url.value
    ensures x.sent.Some? && fetch(x.sent.value).Image? ==>
      var img := fetch(x.sent.value);
      && x.response.status == 200
      && x.response.headers == ImageHeaders(img.contentType)
      && x.response.body == BytesBody(img.bytes)
    ensures x.sent.Some? && fetch(x.sent.value).ImageFailed? ==>
      x.response == Response(500, Cors(Methods), ErrorJson(LoadFailedMessage))
  {
    if url.None? || url.value == "" then Exchange(None, Response(400, Cors(Methods), ErrorJson(MissingUrlMessage)))
    else match fetch(url.value)
      case Image(contentType, bytes) =>
        Exchange(Some(url.value), Response(200, ImageHeaders(contentType), BytesBody(bytes)))
      case ImageFailed => Exchange(Some(url.value), Response(500, Cors(Methods), ErrorJson(LoadFailedMessage)))
  }
}

=== FILE: next_scrape.dfy ===
/** `src/app/api/scrape/route.ts`: the scrape endpoint as a Next route. It
    calls the scraper of `src/lib/scraper`, which is not part of this model:
    `scrape` stands for it, giving the resolved value or the `message` of
    what it threw. The exchange records the username handed to it.
    OPTIONS is `NextPreflight(Methods)`. */
module NextScrape {
  import opened Basics
  import opened JsValues
  import opened Http

  const Methods := "POST, OPTIONS"
  const MissingUsernameMessage := "Username não fornecido"

  /** POST, given what `request.json()` produced: the parsed object, or the
      message of the error it threw. */
  function Post(parsed: Result<map<string, JsValue>, string>, scrape: JsValue -> Result<JsValue, JsValue>)
    : (x: Exchange<JsValue>)
    ensures x.response.headers == Cors(Methods)
    ensures parsed.Err? ==> x.sent.None? && x.response == Response(500, Cors(Methods), JsonBody(Obj(map["error" := Str(parsed.error)])))
    ensures parsed.Ok? && !Truthy(Field(parsed.value, "username")) ==>
      x.response.status == 400 && x.response.body == ErrorJson(MissingUsernameMessage) && x.sent.None?
    ensures x.sent.Some? <==> parsed.Ok? && Truthy(Field(parsed.value, "username"))
    ensures x.sent.Some? ==> x.sent.value == Field(parsed.value, "username")
    ensures x.sent.Some? && scrape(x.sent.value).Ok? ==>
      x.response.status == 200 && x.response.body == JsonBody(scrape(x.sent.value).value)
    ensures x.sent.Some? && scrape(x.sent.value).Err? ==>
      x.response.status == 500 && x.response.body == JsonBody(Obj(map["error" := scrape(x.sent.value).error]))
  {
    match parsed
    case Err(m) => Exchange(None, Response(500, Cors(Methods), JsonBody(Obj(map["error" := Str(m)]))))
    case Ok(body) =>
      var username := Field(body, "username");
      if !Truthy(username) then Exchange(None, Response(400, Cors(Methods), ErrorJson(MissingUsernameMessage)))
      else match scrape(username)
        case Ok(data) => Exchange(Some(username), Response(200, Cors(Methods), JsonBody(data)))
        case Err(message) =>
          Exchange(Some(username), Response(500, Cors(Methods), JsonBody(Obj(map["error" := message]))))
  }
}

=== FILE: rate_limit.dfy ===
/** `waitForRateLimit` of the scraper: a process-wide `lastRequestTime`
    (initially 0) and a pause that keeps successive upstream requests at
    least `RateLimitDelay` milliseconds apart. The clock is an input: each
    call reads it once on entry and once after its pause, and the second
    reading becomes the new `lastRequestTime`. */
module RateLimit {

  const RateLimitDelay: int := 5000

  datatype Governor = Governor(lastRequestTime: int)

  const Initial: Governor := Governor(0)

  /** The pause handed to `setTimeout`, or 0 when the call does not sleep. */
  function Wait(g: Governor, now: int): (w: nat)
    ensures w == 0 <==> now - g.lastRequestTime >= RateLimitDelay
    ensures w > 0 ==> now + w == g.lastRequestTime + RateLimitDelay
    ensures now >= g.lastRequestTime ==> w <= RateLimitDelay
  {
    var elapsed := now - g.lastRequestTime;
    if elapsed < RateLimitDelay then RateLimitDelay - elapsed else 0
  }

  /** The two clock readings of one call: `Date.now()` on entry and after
      the pause. */
  datatype Readings = Readings(entry: int, exit: int)

  /** One call of `waitForRateLimit`: the pause it asks for and the state it
      leaves behind. */
  datatype Call = Call(pause: nat, after: Governor)

  function Await(g: Governor, r: Readings): (c: Call)
    ensures c.after.lastRequestTime == r.exit
    ensures c.pause == Wait(g, r.entry)
  {
    Call(Wait(g, r.entry), Governor(r.exit))
  }

  /** The clock does not run backwards and `setTimeout` sleeps at least the
      requested time. */
  predicate Honest(g: Governor, r: Readings) {
    r.exit >= r.entry + Wait(g, r.entry)
  }

  /** With an honest clock, one call moves `lastRequestTime` forward by at
      least the delay. */
  lemma AwaitSpacing(g: Governor, r: Readings)
    requires Honest(g, r)
    ensures Await(g, r).after.lastRequestTime >= g.lastRequestTime + RateLimitDelay
  {
  }

  /** The `lastRequestTime` values a sequence of calls leaves behind. */
  function Run(g: Governor, calls: seq<Readings>): (times: seq<int>)
    ensures |times| == |calls|
    decreases |calls|
  {
    if |calls| == 0 then []
    else [calls[0].exit] + Run(Await(g, calls[0]).after, calls[1..])
  }

  predicate HonestRun(g: Governor, calls: seq<Readings>)
    decreases |calls|
  {
    |calls| == 0 || (Honest(g, calls[0]) && HonestRun(Await(g, calls[0]).after, calls[1..]))
  }

  /** Every call of an honest run returns at least the delay after the one
      before it (and after the starting `lastRequestTime`). */
  lemma {:induction false} RunSpacing(g: Governor, calls: seq<Readings>)
    requires HonestRun(g, calls)
    ensures |calls| > 0 ==> Run(g, calls)[0] >= g.lastRequestTime + RateLimitDelay
    ensures forall i :: 1 <= i < |calls| ==> Run(g, calls)[i] >= Run(g, calls)[i - 1] + RateLimitDelay
    decreases |calls|
  {
    if |calls| > 0 {
      var g' := Await(g, calls[0]).after;
      AwaitSpacing(g, calls[0]);
      RunSpacing(g', calls[1..]);
      var t := Run(g, calls);
      assert t[1..] == Run(g', calls[1..]);
      forall i | 1 <= i < |calls|
        ensures t[i] >= t[i - 1] + RateLimitDelay
      {
        if i > 1 {
          assert t[i] == t[1..][i - 1] && t[i - 1] == t[1..][i - 2];
        }
      }
    }
  }
}

=== FILE: registration_form.dfy ===
/** The state of the registration page and the updates its handlers make:
    typing into a field, the scrape trigger, merging a scrape reply, and
    submitting. Timers (the one-second debounce) and rendering are not
    modelled; each handler is one step of a state machine over `Form`. */
module RegistrationForm {
  import opened Basics
  import opened JsStrings
  import opened JsValues
  import opened FormSchema

  const ScrapeSucceededMessage := "Dados obtidos com sucesso!"
  const ScrapeFailedMessage := "Não foi possível obter os dados do perfil."

  datatype ScrapeStatus = ScrapeStatus(success: bool, message: JsValue, isPrivate: JsValue)

  /** `formData`, `errors`, `isLoading`, `isScraping` and `scrapeStatus`. */
  datatype Form = Form(
    data: map<string, JsValue>,
    errors: map<string, string>,
    isLoading: bool,
    isScraping: bool,
    scrapeStatus: Option<ScrapeStatus>)

  const Initial: Form := Form(map[], map[], false, false, None)

  /** `handleChange` for the input named `name`: store the text, clear that
      field's error if it has one, and forget the scrape status when the
      handle changes. */
  function HandleChange(f: Form, name: string, value: string): (g: Form)
    ensures g.data == f.data[name := Str(value)]
    ensures name in f.errors && f.errors[name] != "" ==> name !in g.errors
    ensures !(name in f.errors && f.errors[name] != "") ==> g.errors == f.errors
    ensures forall k :: k != name ==> (k in g.errors <==> k in f.errors)
    ensures forall k :: k != name && k in g.errors ==> g.errors[k] == f.errors[k]
    ensures g.scrapeStatus == (if name == "instagram" then None else f.scrapeStatus)
    ensures g.isLoading == f.isLoading && g.isScraping == f.isScraping
  {
    var errors := if name in f.errors && f.errors[name] != "" then f.errors - {name} else f.errors;
    f.(data := f.data[name := Str(value)], errors := errors,
       scrapeStatus := if name == "instagram" then None else f.scrapeStatus)
  }

  /** The condition of the scrape effect:
      `instagram && instagram.length > 1 && instagram.startsWith('@')`. */
  predicate ShouldScrape(data: map<string, JsValue>) {
    match Field(data, "instagram")
    case Str(s) => |s| > 0 && Utf16Length(s) > 1 && StartsWith(s, "@")
    case _ => false
  }

  /** The scrape effect: `isScraping` follows the condition, and when it
      holds the request body `{ username: instagram }` is scheduled. */
  function StartScrape(f: Form): (r: (Form, Option<JsValue>))
    ensures r.0 == f.(isScraping := ShouldScrape(f.data))
    ensures r.1.Some? <==> ShouldScrape(f.data)
    ensures r.1.Some? ==> r.1.value == Obj(map["username" := Field(f.data, "instagram")])
  {
    if ShouldScrape(f.data) then
      (f.(isScraping := true), Some(Obj(map["username" := Field(f.data, "instagram")])))
    else (f.(isScraping := false), None)
  }

  /** `followers ? Number(followers) : undefined` */
  function FollowerCount(followers: JsValue): (v: JsValue)
    ensures !Truthy(followers) ==> v == Undefined
    ensures followers.Num? && followers.n != 0 ==> v == followers
    ensures Truthy(followers) ==> v.Num? || v.NaN?
    ensures Truthy(followers) ==> v == ToNumber(followers)
    ensures forall n {:trigger IntToDecimal(n)} :: followers == Str(IntToDecimal(n)) ==> v == Num(n)
  {
    DecimalTextsAreTheirNumbers();
    if Truthy(followers) then ToNumber(followers) else Undefined
  }

  /** `Number` reads the decimal text of every integer back as that integer. */
  lemma DecimalTextsAreTheirNumbers()
    ensures forall n {:trigger IntToDecimal(n)} :: ToNumber(Str(IntToDecimal(n))) == Num(n)
  {
    forall n: int
      ensures ToNumber(Str(IntToDecimal(n))) == Num(n)
    {
      NumberOfStringRoundTrip(n);
    }
  }

  /** A successful scrape reply (`response.data`) merged into the form: the
      picture, bio and follower count are replaced (by undefined when the
      reply lacks them); the name fills `fullName` only when it is truthy
      and `fullName` is not already set. */
  function ApplyScrapeReply(f: Form, reply: map<string, JsValue>): (g: Form)
    ensures Field(g.data, "profilePicUrl") == Field(reply, "profilePicUrl")
    ensures Field(g.data, "bio") == Field(reply, "bio")
    ensures Field(g.data, "followers") == FollowerCount(Field(reply, "followers"))
    ensures Field(g.data, "fullName") ==
      (if Truthy(Field(reply, "name")) && !Truthy(Field(f.data, "fullName")) then Field(reply, "name")
       else Field(f.data, "fullName"))
    ensures forall k :: k !in {"fullName", "profilePicUrl", "bio", "followers"} ==> Field(g.data, k) == Field(f.data, k)
    ensures !g.isScraping
    ensures g.scrapeStatus == Some(ScrapeStatus(true, Str(ScrapeSucceededMessage), Field(reply, "isPrivate")))
    ensures g.errors == f.errors && g.isLoading == f.isLoading
  {
    var name := Field(reply, "name");
    var merged := f.data["profilePicUrl" := Field(reply, "profilePicUrl")]["bio" := Field(reply, "bio")]
                        ["followers" := FollowerCount(Field(reply, "followers"))];
    var data := if Truthy(name) && !Truthy(Field(f.data, "fullName")) then merged["fullName" := name] else merged;
    f.(data := data, isScraping := false,
       scrapeStatus := Some(ScrapeStatus(true, Str(ScrapeSucceededMessage), Field(reply, "isPrivate"))))
  }

  /** A failed scrape: the status shows the server's `error` field when it
      is truthy, the generic message otherwise. `serverError` is
      `error.response.data.error`, undefined when there was no response. */
  function ApplyScrapeFailure(f: Form, serverError: JsValue): (g: Form)
    ensures g.data == f.data && g.errors == f.errors && !g.isScraping
    ensures g.scrapeStatus.Some? && !g.scrapeStatus.value.success
    ensures g.scrapeStatus.value.message == (if Truthy(serverError) then serverError else Str(ScrapeFailedMessage))
    ensures g.isLoading == f.isLoading && g.scrapeStatus.value.isPrivate == Undefined
  {
    var message := if Truthy(serverError) then serverError else Str(ScrapeFailedMessage);
    f.(isScraping := false, scrapeStatus := Some(ScrapeStatus(false, message, Undefined)))
  }

  /** The body posted to `/influencers`: exactly the seven validated fields. */
  function SubmissionJson(v: Valid): (j: JsValue)
    ensures j.Obj? && j.fields.Keys == {"fullName", "instagram", "followers", "bio", "profilePicUrl", "profile", "notes"}
    ensures j.fields["fullName"] == Str(v.fullName) && j.fields["instagram"] == Str(v.instagram)
    ensures j.fields["followers"] == v.followers && j.fields["bio"] == v.bio
    ensures j.fields["profilePicUrl"] == v.profilePicUrl && j.fields["profile"] == v.profile
    ensures j.fields["notes"] == v.notes
  {
    Obj(map["fullName" := Str(v.fullName), "instagram" := Str(v.instagram), "followers" := v.followers,
            "bio" := v.bio, "profilePicUrl" := v.profilePicUrl, "profile" := v.profile, "notes" := v.notes])
  }

  /** `handleSubmit` up to the POST: an invalid form only gets its error map
      and posts nothing; a valid one clears the errors, starts loading and
      posts the submission. */
  function Submit(f: Form, isUrl: string -> bool): (r: (Form, Option<JsValue>))
    ensures SafeParse(f.data, isUrl).Err? ==>
      r.1.None? && r.0 == f.(errors := ErrorMap(SafeParse(f.data, isUrl).error))
    ensures SafeParse(f.data, isUrl).Ok? ==>
      r.1 == Some(SubmissionJson(SafeParse(f.data, isUrl).value)) && r.0 == f.(errors := map[], isLoading := true)
    ensures r.1.Some? <==> |Issues(f.data, isUrl)| == 0
  {
    match SafeParse(f.data, isUrl)
    case Err(issues) => (f.(errors := ErrorMap(issues)), None)
    case Ok(v) => (f.(errors := map[], isLoading := true), Some(SubmissionJson(v)))
  }

  /** The end of `handleSubmit`: on success the form is reset (data and
      scrape status); either way loading stops. */
  function FinishSubmit(f: Form, succeeded: bool): (g: Form)
    ensures !g.isLoading && g.errors == f.errors && g.isScraping == f.isScraping
    ensures succeeded ==> g.data == map[] && g.scrapeStatus.None?
    ensures !succeeded ==> g.data == f.data && g.scrapeStatus == f.scrapeStatus
  {
    if succeeded then f.(data := map[], scrapeStatus := None, isLoading := false)
    else f.(isLoading := false)
  }

  /** What can happen to the page. */
  datatype Event =
    | Typed(name: string, value: string)
    | ScrapeTriggered
    | ScrapeReplied(reply: map<string, JsValue>)
    | ScrapeFailed(serverError: JsValue)
    | Submitted
    | SubmitFinished(succeeded: bool)

  function Step(f: Form, e: Event, isUrl: string -> bool): Form {
    match e
    case Typed(name, value) => HandleChange(f, name, value)
    case ScrapeTriggered => StartScrape(f).0
    case ScrapeReplied(reply) => ApplyScrapeReply(f, reply)
    case ScrapeFailed(serverError) => ApplyScrapeFailure(f, serverError)
    case Submitted => Submit(f, isUrl).0
    case SubmitFinished(succeeded) => FinishSubmit(f, succeeded)
  }

  function Run(f: Form, events: seq<Event>, isUrl: string -> bool): Form
    decreases |events|
  {
    if |events| == 0 then f else Run(Step(f, events[0], isUrl), events[1..], isUrl)
  }

  /** The handle is only ever typed text: absent or a string. */
  predicate HandleIsText(f: Form) {
    Field(f.data, "instagram").Undefined? || Field(f.data, "instagram").Str?
  }

  /** Every event keeps the handle typed text, so the scrape condition never
      meets an array or another value its `startsWith` call would fail on. */
  lemma {:induction false} RunKeepsHandleText(f: Form, events: seq<Event>, isUrl: string -> bool)
    requires HandleIsText(f)
    ensures HandleIsText(Run(f, events, isUrl))
    decreases |events|
  {
    if |events| > 0 {
      var g := Step(f, events[0], isUrl);
      assert HandleIsText(g) by {
        match events[0]
        case ScrapeReplied(reply) =>
          assert "instagram" !in {"fullName", "profilePicUrl", "bio", "followers"};
        case _ =>
      }
      RunKeepsHandleText(g, events[1..], isUrl);
    }
  }
}

=== FILE: scraper.dfy ===
/** The profile scraper: the rewrite of picture URLs onto the image proxy,
    the mapping of the upstream user record to the scraped profile, and the
    classification of failures into three messages. The HTTP GET to the
    upstream is an input: what it produced for the requested URL. The
    in-memory cache and `waitForRateLimit` are declared next to it but never
    used by it, so neither appears here (the governor is `RateLimit`). */
module Scraper {
  import opened Basics
  import opened JsStrings
  import opened JsValues
  import opened UriComponent

  const ProxyPrefix := "http://localhost:3001/proxy-image?url="
  const ProfileEndpoint := "https://www.instagram.com/api/v1/users/web_profile_info/?username="
  const TooManyRequestsMessage := "Muitas requisições. Tente novamente em alguns minutos."
  const NotFoundMessage := "Perfil não encontrado"
  const FetchErrorPrefix := "Erro ao buscar dados do Instagram: "

  /** `convertToProxyUrl`: empty for a falsy input, otherwise the proxy
      endpoint followed by the encoded input and nothing else, so the whole
      remainder is the `url` parameter. */
  function ConvertToProxyUrl(originalUrl: JsValue): (url: string)
    ensures !Truthy(originalUrl) <==> url == ""
    ensures Truthy(originalUrl) ==> StartsWith(url, ProxyPrefix)
    ensures Truthy(originalUrl) ==> url[|ProxyPrefix|..] == EncodeURIComponent(ToString(originalUrl))
    ensures Truthy(originalUrl) ==> QueryValue(url[|ProxyPrefix|..]) == url[|ProxyPrefix|..]
  {
    if !Truthy(originalUrl) then ""
    else
      var encoded := EncodeURIComponent(ToString(originalUrl));
      EncodingHasNoDelimiters(ToString(originalUrl));
      QueryValueOfUndelimited(encoded);
      assert (ProxyPrefix + encoded)[|ProxyPrefix|..] == encoded;
      ProxyPrefix + encoded
  }

  /** Text without `&` or `#` is a query value in full. */
  lemma {:induction false} QueryValueOfUndelimited(s: string)
    requires forall i :: 0 <= i < |s| ==> s[i] != '&' && s[i] != '#'
    ensures QueryValue(s) == s
  {
    if |s| > 0 {
      var tail := s[1..];
      assert forall i :: 0 <= i < |tail| ==> tail[i] == s[i + 1];
      QueryValueOfUndelimited(tail);
      assert [s[0]] + tail == s;
    }
  }

  /** The text of a query value: everything up to the first `&` or `#`. */
  function QueryValue(s: string): (v: string)
    ensures |v| <= |s| && v == s[..|v|]
  {
    if |s| == 0 || s[0] == '&' || s[0] == '#' then "" else [s[0]] + QueryValue(s[1..])
  }

  /** The image URL a proxy URL points at: its `url` parameter, decoded. */
  function ProxyTarget(url: string): Option<string> {
    if StartsWith(url, ProxyPrefix) then DecodeURIComponent(QueryValue(url[|ProxyPrefix|..]))
    else None
  }

  lemma {:induction false} QueryValueOfEncoding(s: string)
    requires forall i :: 0 <= i < |s| ==> IsEncodedChar(s[i])
    ensures QueryValue(s) == s
  {
    if |s| > 0 {
      QueryValueOfEncoding(s[1..]);
    }
  }

  /** The proxy URL carries the original URL exactly: reading its `url`
      parameter back yields the input text. */
  lemma ProxyUrlRoundTrip(originalUrl: JsValue)
    requires Truthy(originalUrl)
    ensures ProxyTarget(ConvertToProxyUrl(originalUrl)) == Some(ToString(originalUrl))
  {
    var e := EncodeURIComponent(ToString(originalUrl));
    assert ConvertToProxyUrl(originalUrl)[|ProxyPrefix|..] == e;
    QueryValueOfEncoding(e);
    DecodeEncodeRoundTrip(ToString(originalUrl));
  }

  /** The upstream URL for a username: the value is interpolated as it is,
      so a leading `@` is sent along. */
  function RequestUrl(username: JsValue): (u: string)
    ensures StartsWith(u, ProfileEndpoint) && u[|ProfileEndpoint|..] == ToString(username)
  {
    ProfileEndpoint + ToString(username)
  }

  /** What the axios GET produced: a response whose parsed body is `data`,
      or a thrown error with the status of the response when the server
      answered (axios throws on every non-2xx status). */
  datatype Upstream = Responded(data: JsValue) | Failed(status: Option<int>, message: string)

  /** The object `scrapeInstagramProfile` resolves with. */
  datatype Profile = Profile(
    name: JsValue,
    followers: JsValue,
    biography: JsValue,
    isPrivate: JsValue,
    profilePicUrl: string)

  /** `response.data.data.user`, or the TypeError reading it throws. */
  function UserOf(data: JsValue): Result<JsValue, string> {
    var d :- ReadProperty(data, "data");
    ReadProperty(d, "user")
  }

  /** A property of a value that is neither undefined nor null. */
  function Prop(v: JsValue, key: string): JsValue
    requires !v.Undefined? && !v.Null?
  {
    ReadProperty(v, key).value
  }

  /** The body of the `try` after the request: find the user record, throw
      "not found" when it is missing, and map its fields. Reading
      `edge_followed_by.count` throws when `edge_followed_by` is absent. */
  function Extract(data: JsValue): (r: Result<Profile, string>)
    ensures UserOf(data).Err? ==> r == Err(UserOf(data).error)
    ensures UserOf(data).Ok? && !Truthy(UserOf(data).value) ==> r == Err(NotFoundMessage)
    ensures UserOf(data).Ok? && Truthy(UserOf(data).value) ==>
      var count := ReadProperty(Prop(UserOf(data).value, "edge_followed_by"), "count");
      && (r.Ok? <==> count.Ok?)
      && (count.Err? ==> r == Err(count.error))
    ensures r.Ok? ==>
      var u := UserOf(data).value;
      && UserOf(data).Ok? && Truthy(u)
      && r.value.name == Prop(u, "full_name")
      && ReadProperty(Prop(u, "edge_followed_by"), "count") == Ok(r.value.followers)
      && r.value.biography == Prop(u, "biography")
      && r.value.isPrivate == Prop(u, "is_private")
      && r.value.profilePicUrl == ConvertToProxyUrl(Prop(u, "profile_pic_url"))
  {
    var user :- UserOf(data);
    if !Truthy(user) then Err(NotFoundMessage)
    else
      var picture := ConvertToProxyUrl(Prop(user, "profile_pic_url"));
      var count :- ReadProperty(Prop(user, "edge_followed_by"), "count");
      Ok(Profile(Prop(user, "full_name"), count, Prop(user, "biography"), Prop(user, "is_private"), picture))
  }

  /** The whole `try`/`catch` for one upstream outcome. Only an error that
      carries a response status is classified as rate limiting or not found;
      everything thrown inside the `try`, the missing user included, is
      re-caught and gets the generic prefix. */
  function Classify(outcome: Upstream): (r: Result<Profile, string>)
    ensures outcome.Failed? && outcome.status == Some(429) ==> r == Err(TooManyRequestsMessage)
    ensures outcome.Failed? && outcome.status == Some(404) ==> r == Err(NotFoundMessage)
    ensures outcome.Failed? && outcome.status != Some(429) && outcome.status != Some(404) ==>
      r == Err(FetchErrorPrefix + outcome.message)
    ensures outcome.Responded? && Extract(outcome.data).Err? ==>
      r == Err(FetchErrorPrefix + Extract(outcome.data).error)
    ensures r.Ok? <==> outcome.Responded? && Extract(outcome.data).Ok?
    ensures r.Ok? ==> r == Extract(outcome.data)
    ensures r == Err(NotFoundMessage) ==> outcome == Failed(Some(404), outcome.message)
    ensures r.Err? ==> r.error == TooManyRequestsMessage || r.error == NotFoundMessage
                       || StartsWith(r.error, FetchErrorPrefix)
  {
    match outcome
    case Failed(status, message) =>
      if status == Some(429) then Err(TooManyRequestsMessage)
      else if status == Some(404) then Err(NotFoundMessage)
      else
        assert |FetchErrorPrefix + message| > |NotFoundMessage|;
        Err(FetchErrorPrefix + message)
    case Responded(data) =>
      match Extract(data)
      case Ok(p) => Ok(p)
      case Err(m) =>
        assert |FetchErrorPrefix + m| > |NotFoundMessage|;
        Err(FetchErrorPrefix + m)
  }

  /** `scrapeInstagramProfile(username)`, with `fetch` standing for the
      upstream: every failure is one of the three messages, and a success
      never exposes a raw picture URL. */
  function ScrapeInstagramProfile(username: JsValue, fetch: string -> Upstream): (r: Result<Profile, string>)
    ensures r.Err? ==> r.error == TooManyRequestsMessage || r.error == NotFoundMessage
                       || StartsWith(r.error, FetchErrorPrefix)
    ensures r.Ok? ==> r.value.profilePicUrl == "" || StartsWith(r.value.profilePicUrl, ProxyPrefix)
    ensures
      var outcome := fetch(RequestUrl(username));
      && (r.Ok? <==> outcome.Responded? && Extract(outcome.data).Ok?)
      && (r.Ok? ==> r == Extract(outcome.data))
      && (outcome.Responded? && Extract(outcome.data).Err? ==>
            r == Err(FetchErrorPrefix + Extract(outcome.data).error))
      && (outcome.Failed? && outcome.status == Some(429) ==> r == Err(TooManyRequestsMessage))
      && (outcome.Failed? && outcome.status == Some(404) ==> r == Err(NotFoundMessage))
      && (outcome.Failed? && outcome.status != Some(429) && outcome.status != Some(404) ==>
            r == Err(FetchErrorPrefix + outcome.message))
  {
    Classify(fetch(RequestUrl(username)))
  }

  /** A response without a user record fails with the prefixed message, not
      the bare "not found" a 404 gets. */
  lemma MissingUserIsGenericFailure(data: JsValue)
    requires UserOf(data).Ok? && !Truthy(UserOf(data).value)
    ensures Classify(Responded(data)) == Err(FetchErrorPrefix + NotFoundMessage)
    ensures Classify(Responded(data)) != Classify(Failed(Some(404), ""))
  {
  }

  /** A successful scrape's picture URL points at the proxy and carries the
      upstream picture URL, or is empty when the upstream had none. */
  lemma ScrapedPictureIsProxied(username: JsValue, fetch: string -> Upstream)
    requires ScrapeInstagramProfile(username, fetch).Ok?
    ensures
      var p := ScrapeInstagramProfile(username, fetch).value;
      var raw := Prop(UserOf(fetch(RequestUrl(username)).data).value, "profile_pic_url");
      && (p.profilePicUrl == "" <==> !Truthy(raw))
      && (Truthy(raw) ==> ProxyTarget(p.profilePicUrl) == Some(ToString(raw)))
  {
    var raw := Prop(UserOf(fetch(RequestUrl(username)).data).value, "profile_pic_url");
    if Truthy(raw) {
      ProxyUrlRoundTrip(raw);
    }
  }

  /** The JSON the handlers send for a profile. */
  function ProfileJson(p: Profile): (v: JsValue)
    ensures v.Obj? && v.fields.Keys == {"name", "followers", "biography", "is_private", "profile_pic_url"}
  {
    Obj(map["name" := p.name, "followers" := p.followers, "biography" := p.biography,
            "is_private" := p.isPrivate, "profile_pic_url" := Str(p.profilePicUrl)])
  }
}

=== FILE: tags.dfy ===
/** `profile.split(',').map(tag => tag.trim())`: the comma-separated tag text
    of the registration form turned into a list of tags. */
module Tags {
  import opened JsStrings

  /** There is one tag more than there are commas (empty pieces are kept);
      each tag is its piece trimmed, so no tag holds a comma or starts or
      ends with white space. */
  function SplitTags(s: string): (tags: seq<string>)
    ensures |tags| == |Split(s, ',')| == Count(s, ',') + 1
    ensures forall i :: 0 <= i < |tags| ==> tags[i] == Trim(Split(s, ',')[i])
    ensures forall i :: 0 <= i < |tags| ==>
      var t := tags[i];
      && Count(t, ',') == 0
      && (|t| > 0 ==> !IsWhitespace(t[0]) && !IsWhitespace(t[|t| - 1]))
  {
    var pieces := Split(s, ',');
    SplitCount(s, ',');
    SplitPiecesHaveNoSeparator(s, ',');
    TrimmedPiecesHaveNone(pieces, ',');
    seq(|pieces|, i requires 0 <= i < |pieces| => Trim(pieces[i]))
  }

  /** Trimming never brings in a character the pieces did not hold. */
  lemma TrimmedPiecesHaveNone(pieces: seq<string>, c: char)
    requires forall i :: 0 <= i < |pieces| ==> Count(pieces[i], c) == 0
    ensures forall i :: 0 <= i < |pieces| ==> Count(Trim(pieces[i]), c) == 0
  {
    forall i | 0 <= i < |pieces|
      ensures Count(Trim(pieces[i]), c) == 0
    {
      var b := TrimBounds(pieces[i]);
      InfixCount(pieces[i], b.0, b.1, c);
    }
  }

  /** Occurrences in a concatenation add up. */
  lemma {:induction false} CountConcat(a: string, b: string, c: char)
    ensures Count(a + b, c) == Count(a, c) + Count(b, c)
    decreases |a|
  {
    if |a| == 0 {
      assert a + b == b;
    } else {
      assert (a + b)[0] == a[0] && (a + b)[1..] == a[1..] + b;
      CountConcat(a[1..], b, c);
    }
  }

  /** A slice holds no more occurrences of a character than the whole. */
  lemma InfixCount(s: string, lo: nat, hi: nat, c: char)
    requires lo <= hi <= |s|
    ensures Count(s[lo..hi], c) <= Count(s, c)
  {
    assert s == s[..lo] + (s[lo..hi] + s[hi..]);
    CountConcat(s[lo..hi], s[hi..], c);
    CountConcat(s[..lo], s[lo..hi] + s[hi..], c);
  }

  /** A text without commas is a single tag: its own trim. */
  lemma SingleTag(s: string)
    requires Count(s, ',') == 0
    ensures SplitTags(s) == [Trim(s)]
  {
    SplitCount(s, ',');
    SplitJoin(s, ',');
  }
}

=== FILE: uri_component.dfy ===
/** `encodeURIComponent` and `decodeURIComponent` of ECMA-262 (section
    19.2.6, the Encode and Decode operations with an empty reserved set):
    characters outside the unreserved set of section 2.3 of RFC 3986 plus
    `! * ' ( )` are written as the `%XX` triplets (section 2.1 of RFC 3986)
    of their UTF-8 octets, with upper-case hexadecimal digits. A Dafny
    `char` is a Unicode scalar value, so the lone surrogates on which
    `encodeURIComponent` throws cannot occur. */
module UriComponent {
  import opened Basics

  /** uriAlpha, DecimalDigit and uriMark: the characters left as they are. */
  predicate IsUnreserved(c: char) {
    ('A' <= c <= 'Z') || ('a' <= c <= 'z') || ('0' <= c <= '9')
    || c == '-' || c == '_' || c == '.' || c == '!' || c == '~'
    || c == '*' || c == '\'' || c == '(' || c == ')'
  }

  const HexDigits: string := "0123456789ABCDEF"

  predicate IsUpperHex(c: char) {
    ('0' <= c <= '9') || ('A' <= c <= 'F')
  }

  /** A character that can appear in the output of the encoder. */
  predicate IsEncodedChar(c: char) {
    IsUnreserved(c) || c == '%' || IsUpperHex(c)
  }

  /** Value of a hexadecimal digit of either case. */
  function HexValue(c: char): (r: Option<nat>)
    ensures r.Some? ==> r.value < 16
  {
    if '0' <= c <= '9' then Some(c as int - '0' as int)
    else if 'A' <= c <= 'F' then Some(c as int - 'A' as int + 10)
    else if 'a' <= c <= 'f' then Some(c as int - 'a' as int + 10)
    else None
  }

  lemma HexDigitRoundTrip(d: nat)
    requires d < 16
    ensures HexValue(HexDigits[d]) == Some(d)
    ensures IsUpperHex(HexDigits[d])
  {
    if d < 10 {
      assert HexDigits[d] as int == '0' as int + d;
    } else {
      assert HexDigits[d] as int == 'A' as int + d - 10;
    }
  }

  /** The UTF-8 octets of one character (section 3 of RFC 3629). */
  function Utf8(c: char): (bs: seq<Byte>)
    ensures 1 <= |bs| <= 4
    ensures c as int < 0x80 <==> |bs| == 1
  {
    var n := c as int;
    if n < 0x80 then [n]
    else if n < 0x800 then [0xC0 + n / 64, 0x80 + n % 64]
    else if n < 0x10000 then [0xE0 + n / 64 / 64, 0x80 + n / 64 % 64, 0x80 + n % 64]
    else [0xF0 + n / 64 / 64 / 64, 0x80 + n / 64 / 64 % 64, 0x80 + n / 64 % 64, 0x80 + n % 64]
  }

  /** Each octet written as `%` and two upper-case hexadecimal digits. */
  function Escape(bs: seq<Byte>): (s: string)
    ensures |s| == 3 * |bs|
    ensures forall i :: 0 <= i < |s| ==> IsEncodedChar(s[i])
  {
    if |bs| == 0 then ""
    else
      HexDigitRoundTrip(bs[0] / 16);
      HexDigitRoundTrip(bs[0] % 16);
      ['%', HexDigits[bs[0] / 16], HexDigits[bs[0] % 16]] + Escape(bs[1..])
  }

  function EncodeChar(c: char): (s: string)
    ensures forall i :: 0 <= i < |s| ==> IsEncodedChar(s[i])
  {
    if IsUnreserved(c) then [c] else Escape(Utf8(c))
  }

  /** `encodeURIComponent(s)`: only unreserved characters, `%` and
      upper-case hexadecimal digits appear in the result, and text made of
      unreserved characters only is left as it is. */
  function EncodeURIComponent(s: string): (r: string)
    ensures forall i :: 0 <= i < |r| ==> IsEncodedChar(r[i])
    ensures (forall i :: 0 <= i < |s| ==> IsUnreserved(s[i])) ==> r == s
  {
    if |s| == 0 then ""
    else
      var tail := s[1..];
      assert forall i :: 0 <= i < |tail| ==> tail[i] == s[i + 1];
      EncodeChar(s[0]) + EncodeURIComponent(tail)
  }

  /** The separators a URL query is parsed on never occur in an encoding,
      so an encoded value stays one query parameter. */
  lemma EncodingHasNoDelimiters(s: string)
    ensures forall i :: 0 <= i < |EncodeURIComponent(s)| ==>
      EncodeURIComponent(s)[i] !in {'&', '#', '?', '=', '/', ':', '+', ' '}
  {
  }

  /** The octet written as `%XX` at position `i`, if one is written there. */
  function EscapedByte(s: string, i: nat): (r: Option<Byte>)
    ensures r.Some? ==> i + 3 <= |s| && s[i] == '%'
  {
    if i + 3 <= |s| && s[i] == '%' && HexValue(s[i + 1]).Some? && HexValue(s[i + 2]).Some? then
      Some(HexValue(s[i + 1]).value * 16 + HexValue(s[i + 2]).value)
    else None
  }

  /** `count` consecutive escaped octets at the start of `s`. */
  function EscapedBytes(s: string, count: nat): (r: Option<seq<Byte>>)
    ensures r.Some? ==> |r.value| == count && 3 * count <= |s|
  {
    if count == 0 then Some([])
    else match EscapedByte(s, 0)
      case None => None
      case Some(b) =>
        match EscapedBytes(s[3..], count - 1)
        case None => None
        case Some(rest) => Some([b] + rest)
  }

  /** Length of the UTF-8 sequence an octet opens; 0 when it cannot open one. */
  function SequenceLength(b: Byte): nat {
    if b < 0x80 then 1
    else if 0xC0 <= b < 0xE0 then 2
    else if 0xE0 <= b < 0xF0 then 3
    else if 0xF0 <= b < 0xF8 then 4
    else 0
  }

  predicate IsContinuation(b: Byte) {
    0x80 <= b < 0xC0
  }

  /** The character a complete shortest-form UTF-8 sequence encodes; overlong
      forms, surrogates and values past U+10FFFF are rejected, as
      `decodeURIComponent` rejects them with a URIError. */
  function Utf8Decode(bs: seq<Byte>): Option<char> {
    if |bs| == 1 && bs[0] < 0x80 then Some(bs[0] as char)
    else if |bs| == 2 && 0xC0 <= bs[0] < 0xE0 && IsContinuation(bs[1]) then
      var v: int := (bs[0] as int - 0xC0) * 64 + (bs[1] as int - 0x80);
      if v >= 0x80 then Some(v as char) else None
    else if |bs| == 3 && 0xE0 <= bs[0] < 0xF0 && IsContinuation(bs[1]) && IsContinuation(bs[2]) then
      var v: int := ((bs[0] as int - 0xE0) * 64 + (bs[1] as int - 0x80)) * 64 + (bs[2] as int - 0x80);
      if v >= 0x800 && !(0xD800 <= v < 0xE000) then Some(v as char) else None
    else if |bs| == 4 && 0xF0 <= bs[0] < 0xF8 && IsContinuation(bs[1]) && IsContinuation(bs[2])
         && IsContinuation(bs[3]) then
      var v: int := (((bs[0] as int - 0xF0) * 64 + (bs[1] as int - 0x80)) * 64 + (bs[2] as int - 0x80)) * 64
                    + (bs[3] as int - 0x80);
      if 0x10000 <= v < 0x110000 then Some(v as char) else None
    else None
  }

  /** One escaped character at the start of `s` (which starts with `%`):
      the character and the number of input characters it took. */
  function DecodeEscape(s: string): (r: Option<(char, nat)>)
    ensures r.Some? ==> 3 <= r.value.1 <= |s|
  {
    match EscapedByte(s, 0)
    case None => None
    case Some(b) =>
      var n := SequenceLength(b);
      if n == 0 then None
      else match EscapedBytes(s, n)
        case None => None
        case Some(bs) =>
          match Utf8Decode(bs)
          case None => None
          case Some(c) => Some((c, 3 * n))
  }

  /** `decodeURIComponent(s)`; `None` where it throws a URIError. */
  function DecodeURIComponent(s: string): Option<string>
    decreases |s|
  {
    if |s| == 0 then Some("")
    else if s[0] != '%' then
      match DecodeURIComponent(s[1..])
      case None => None
      case Some(t) => Some([s[0]] + t)
    else
      match DecodeEscape(s)
      case None => None
      case Some((c, k)) =>
        match DecodeURIComponent(s[k..])
        case None => None
        case Some(t) => Some([c] + t)
  }

  lemma {:induction false} EscapedBytesOfEscape(bs: seq<Byte>, rest: string)
    ensures EscapedBytes(Escape(bs) + rest, |bs|) == Some(bs)
  {
    if |bs| > 0 {
      var s := Escape(bs) + rest;
      HexDigitRoundTrip(bs[0] / 16);
      HexDigitRoundTrip(bs[0] % 16);
      assert EscapedByte(s, 0) == Some(bs[0]);
      assert s[3..] == Escape(bs[1..]) + rest;
      EscapedBytesOfEscape(bs[1..], rest);
      assert [bs[0]] + bs[1..] == bs;
    }
  }

  lemma Utf8RoundTrip(c: char)
    ensures SequenceLength(Utf8(c)[0]) == |Utf8(c)|
    ensures Utf8Decode(Utf8(c)) == Some(c)
  {
    var n := c as int;
    var q := n / 64;
    assert q * 64 + n % 64 == n;
    assert q / 64 * 64 + q % 64 == q;
    var q2 := q / 64;
    assert q2 / 64 * 64 + q2 % 64 == q2;
    if n < 0x80 {
    } else if n < 0x800 {
      assert q < 32;
    } else if n < 0x10000 {
      assert q2 < 16;
    } else {
      assert q2 / 64 < 8;
    }
  }

  /** Decoding an encoded character and what follows it yields the
      character followed by the decoding of the rest. */
  lemma DecodeEncodedChar(c: char, rest: string)
    ensures DecodeURIComponent(EncodeChar(c) + rest) ==
      match DecodeURIComponent(rest)
      case None => None
      case Some(t) => Some([c] + t)
  {
    var s := EncodeChar(c) + rest;
    if IsUnreserved(c) {
      assert s[0] == c && s[1..] == rest;
    } else {
      var bs := Utf8(c);
      Utf8RoundTrip(c);
      EscapedBytesOfEscape(bs, rest);
      HexDigitRoundTrip(bs[0] / 16);
      HexDigitRoundTrip(bs[0] % 16);
      assert EscapedByte(s, 0) == Some(bs[0]);
      assert DecodeEscape(s) == Some((c, 3 * |bs|));
      assert s[3 * |bs|..] == rest;
    }
  }

  /** `decodeURIComponent(encodeURIComponent(s)) === s` for every string. */
  lemma {:induction false} DecodeEncodeRoundTrip(s: string)
    ensures DecodeURIComponent(EncodeURIComponent(s)) == Some(s)
  {
    if |s| > 0 {
      var rest := EncodeURIComponent(s[1..]);
      DecodeEncodeRoundTrip(s[1..]);
      DecodeEncodedChar(s[0], rest);
      assert EncodeURIComponent(s) == EncodeChar(s[0]) + rest;
      assert [s[0]] + s[1..] == s;
    }
  }

  /** Different strings have different encodings. */
  lemma EncodingIsInjective(s: string, t: string)
    ensures EncodeURIComponent(s) == EncodeURIComponent(t) ==> s == t
  {
    DecodeEncodeRoundTrip(s);
    DecodeEncodeRoundTrip(t);
  }
}

=== FILE: variants.dfy ===
/** The serverless handlers under `api/` and the Next routes under
    `src/app/api/` implement the same endpoints twice. These lemmas state
    where the two variants agree. */
module Variants {
  import opened Basics
  import opened JsValues
  import opened Database
  import opened Scraper
  import InfluencerRows
  import VercelInfluencers
  import NextInfluencers
  import ImageProxy
  import VercelProxyImage
  import NextProxyImage
  import VercelScrape
  import NextScrape

  /** A GET to either image proxy gives the same exchange: the same URL
      fetched (or none), the same status, headers and body. */
  lemma ProxyVariantsAgree(url: Option<string>, fetch: string -> ImageProxy.ImageOutcome)
    ensures VercelProxyImage.Handler("GET", url, fetch) == NextProxyImage.Get(url, fetch)
  {
  }

  /** A POST with a parsed body gives the same INSERT and the same response
      from both influencer handlers; a GET gives the same listing. */
  lemma InfluencerVariantsAgree(body: map<string, JsValue>, select: SelectOutcome,
                                insert: InfluencerRows.Row -> InsertOutcome)
    ensures VercelInfluencers.Handler("POST", body, select, insert) == NextInfluencers.Post(Ok(body), insert)
    ensures VercelInfluencers.Handler("GET", body, select, insert).response == NextInfluencers.Get(select)
  {
  }

  /** The scraper the Next route imports, taken to be the backend's: it
      resolves with the profile object or rejects with the message. */
  function BackendScraper(fetch: string -> Upstream): JsValue -> Result<JsValue, JsValue> {
    (u: JsValue) =>
      match ScrapeInstagramProfile(u, fetch)
      case Ok(p) => Ok(ProfileJson(p))
      case Err(m) => Err(Str(m))
  }

  /** With that scraper, both scrape handlers scrape for the same bodies,
      hand it the same username, and answer with the same response. */
  lemma ScrapeVariantsAgree(body: map<string, JsValue>, fetch: string -> Upstream)
    ensures
      var v := VercelScrape.Handler("POST", body, fetch);
      var n := NextScrape.Post(Ok(body), BackendScraper(fetch));
      && (v.sent.Some? <==> n.sent.Some?)
      && (n.sent.Some? ==> v.sent.value == RequestUrl(n.sent.value))
      && v.response == n.response
  {
  }
}

=== FILE: vercel_influencers.dfy ===
/** `api/influencers.ts`: one serverless handler that sets the CORS headers
    first and then dispatches on the request method. */
module VercelInfluencers {
  import opened Basics
  import opened JsValues
  import opened Http
  import opened Database
  import opened InfluencerRows

  /** The handler; `select` and `insert` stand for the database. */
  function Handler(verb: string, body: map<string, JsValue>, select: SelectOutcome,
                   insert: Row -> InsertOutcome): (x: Exchange<Row>)
    ensures x.response.headers == Cors(Methods)
    ensures verb == "OPTIONS" ==> x.response == Response(200, Cors(Methods), NoBody) && x.sent.None?
    ensures verb == "GET" && select.Rows? ==>
      x.response.status == 200 && x.response.body == JsonBody(Arr(select.rows)) && x.sent.None?
    ensures verb == "GET" && select.SelectFailed? ==>
      x.response.status == 500 && x.response.body == ErrorJson(ListFailedMessage) && x.sent.None?
    ensures verb !in {"OPTIONS", "GET", "POST"} ==>
      x.response.status == 405 && x.response.body == ErrorJson(MethodNotAllowed) && x.sent.None?
    ensures verb == "POST" && (!Truthy(Field(body, "fullName")) || !Truthy(Field(body, "instagram"))) ==>
      x.response.status == 400 && x.response.body == ErrorJson(MissingFieldsMessage) && x.sent.None?
    ensures x.sent.Some? ==> verb == "POST"
    ensures verb == "POST" ==>
      x.sent == Post(body, insert).0 && x.response == PostResponse(Post(body, insert).1, Cors(Methods))
    ensures verb == "POST" ==>
      (x.sent.Some? <==> Truthy(Field(body, "fullName")) && Truthy(Field(body, "instagram"))
                         && ProfileTags(Field(body, "profile")).Ok?)
    ensures verb == "POST" && Truthy(Field(body, "fullName")) && Truthy(Field(body, "instagram"))
            && ProfileTags(Field(body, "profile")).Err? ==>
      x.response.status == 500 && ErrorField(x.response) == Str(SaveFailedPrefix + SplitNotAFunction)
    ensures x.response.status == 201 ==> x.response.body == JsonBody(insert(x.sent.value).row)
    ensures x.response.status == 201 <==> verb == "POST" && x.sent.Some? && insert(x.sent.value).Inserted?
    ensures verb == "POST" && x.sent.Some? && insert(x.sent.value).InsertFailed? ==>
      var f := insert(x.sent.value).fault;
      if IsDuplicate(f) then x.response.status == 400 && ErrorField(x.response) == Str(DuplicateMessage)
      else x.response.status == 500 && ErrorField(x.response) == Str(SaveFailedPrefix + f.message)
  {
    var headers := Cors(Methods);
    if verb == "OPTIONS" then Exchange(None, Response(200, headers, NoBody))
    else if verb == "GET" then Exchange(None, ListResponse(select, headers))
    else if verb == "POST" then
      var (sent, outcome) := Post(body, insert);
      Exchange(sent, PostResponse(outcome, headers))
    else Exchange(None, Response(405, headers, ErrorJson(MethodNotAllowed)))
  }
}

=== FILE: vercel_proxy_image.dfy ===
/** `api/proxy-image.ts`: CORS headers first, then dispatch on the request
    method; GET streams one image through. The exchange records the URL
    fetched, if any. */
module VercelProxyImage {
  import opened Basics
  import opened Http
  import opened ImageProxy

  /** `url` is the `url` query parameter, `None` when absent. */
  function Handler(verb: string, url: Option<string>, fetch: string -> ImageOutcome): (x: Exchange<string>)
    ensures Cors(Methods).Keys <= x.response.headers.Keys
    ensures verb == "OPTIONS" ==> x.response == Response(200, Cors(Methods), NoBody) && x.sent.None?
    ensures verb != "OPTIONS" && verb != "GET" ==>
      x.response == Response(405, Cors(Methods), ErrorJson(MethodNotAllowed)) && x.sent.None?
    ensures verb == "GET" && (url.None? || url.value == "") ==>
      x.response == Response(400, Cors(Methods), ErrorJson(MissingUrlMessage)) && x.sent.None?
    ensures x.sent.Some? <==> verb == "GET" && url.Some? && url.value != ""
    ensures x.sent.Some? ==> x.sent.value == url.value
    ensures x.sent.Some? && fetch(x.sent.value).Image? ==>
      var img := fetch(x.sent.value);
      && x.response.status == 200
      && x.response.headers == ImageHeaders(img.contentType)
      && x.response.body == BytesBody(img.bytes)
    ensures x.sent.Some? && fetch(x.sent.value).ImageFailed? ==>
      x.response == Response(500, Cors(Methods), ErrorJson(LoadFailedMessage))
  {
    var headers := Cors(Methods);
    if verb == "OPTIONS" then Exchange(None, Response(200, headers, NoBody))
    else if verb == "GET" then
      if url.None? || url.value == "" then Exchange(None, Response(400, headers, ErrorJson(MissingUrlMessage)))
      else match fetch(url.value)
        case Image(contentType, bytes) =>
          Exchange(Some(url.value), Response(200, ImageHeaders(contentType), BytesBody(bytes)))
        case ImageFailed => Exchange(Some(url.value), Response(500, headers, ErrorJson(LoadFailedMessage)))
    else Exchange(None, Response(405, headers, ErrorJson(MethodNotAllowed)))
  }
}

=== FILE: vercel_scrape.dfy ===
/** `api/scrape.ts`: CORS headers first, then dispatch on the request
    method; POST reads `username` and runs the scraper. `fetch` stands for
    the upstream the scraper calls. */
module VercelScrape {
  import opened Basics
  import opened JsValues
  import opened Http
  import opened Scraper

  const Methods := "POST, OPTIONS"
  const MissingUsernameMessage := "Username não fornecido"

  function Handler(verb: string, body: map<string, JsValue>, fetch: string -> Upstream): (x: Exchange<string>)
    ensures x.response.headers == Cors(Methods)
    ensures verb == "OPTIONS" ==> x.response.status == 200 && x.response.body == NoBody && x.sent.None?
    ensures verb != "OPTIONS" && verb != "POST" ==>
      x.response.status == 405 && x.response.body == ErrorJson(MethodNotAllowed) && x.sent.None?
    ensures verb == "POST" && !Truthy(Field(body, "username")) ==>
      x.response.status == 400 && x.response.body == ErrorJson(MissingUsernameMessage) && x.sent.None?
    ensures x.sent.Some? <==> verb == "POST" && Truthy(Field(body, "username"))
    ensures x.sent.Some? ==> x.sent.value == RequestUrl(Field(body, "username"))
    ensures x.sent.Some? ==>
      var r := ScrapeInstagramProfile(Field(body, "username"), fetch);
      if r.Ok? then x.response.status == 200 && x.response.body == JsonBody(ProfileJson(r.value))
      else x.response.status == 500 && x.response.body == ErrorJson(r.error)
  {
    var headers := Cors(Methods);
    if verb == "OPTIONS" then Exchange(None, Response(200, headers, NoBody))
    else if verb == "POST" then
      var username := Field(body, "username");
      if !Truthy(username) then Exchange(None, Response(400, headers, ErrorJson(MissingUsernameMessage)))
      else match ScrapeInstagramProfile(username, fetch)
        case Ok(p) => Exchange(Some(RequestUrl(username)), Response(200, headers, JsonBody(ProfileJson(p))))
        case Err(m) => Exchange(Some(RequestUrl(username)), Response(500, headers, ErrorJson(m)))
    else Exchange(None, Response(405, headers, ErrorJson(MethodNotAllowed)))
  }
}

=== FILE: wiring.dfy ===
/** How the pieces fit together across files: what the registration form's
    requests meet on the server side, and where the scraper's picture URLs
    lead. */
module Wiring {
  import opened Basics
  import opened JsStrings
  import opened JsValues
  import opened Http
  import opened Database
  import opened Scraper
  import opened FormSchema
  import opened RegistrationForm
  import BackendRoutes
  import VercelScrape
  import VercelInfluencers
  import InfluencerRows
  import Tags
  import NextProxyImage
  import ImageProxy

  /** The form posts `{ username }` to the backend's `/scrape`, which reads
      `instagram`: every scrape the form starts is rejected with 400 before
      the scraper runs, and the form shows the backend's message. */
  lemma FormScrapeRejectedByBackend(f: Form, fetch: string -> Upstream)
    requires ShouldScrape(f.data)
    ensures
      var request := StartScrape(f).1.value;
      var x := BackendRoutes.PostScrape(request.fields, fetch);
      && x.response.status == 400 && x.sent.None?
      && ErrorField(x.response) == Str(BackendRoutes.MissingHandleMessage)
      && ApplyScrapeFailure(f, ErrorField(x.response)).scrapeStatus.value.message
         == Str(BackendRoutes.MissingHandleMessage)
  {
    var request := StartScrape(f).1.value;
    assert Field(request.fields, "instagram") == Undefined;
  }

  /** The form posts only to the Express app. Were the same body posted to
      the serverless scrape handler, which does read `username`, it would
      reach the scraper with the handle as typed, `@` included. */
  lemma FormScrapeReachesServerlessScraper(f: Form, fetch: string -> Upstream)
    requires ShouldScrape(f.data)
    ensures
      var request := StartScrape(f).1.value;
      VercelScrape.Handler("POST", request.fields, fetch).sent == Some(RequestUrl(Field(f.data, "instagram")))
  {
  }

  /** The scraper answers with `name`, `followers`, `biography`, `is_private`
      and `profile_pic_url`, while the form reads `profilePicUrl`, `bio` and
      `isPrivate`: merging a scraped profile clears the picture and the bio
      and loses the privacy flag; only the name and the follower count
      arrive. */
  lemma ScrapedProfileMergesOnlyNameAndFollowers(f: Form, p: Profile)
    ensures
      var g := ApplyScrapeReply(f, ProfileJson(p).fields);
      && Field(g.data, "profilePicUrl") == Undefined
      && Field(g.data, "bio") == Undefined
      && g.scrapeStatus.value.isPrivate == Undefined
      && Field(g.data, "followers") == FollowerCount(p.followers)
      && (Truthy(p.name) && !Truthy(Field(f.data, "fullName")) ==> Field(g.data, "fullName") == p.name)
  {
    var fields := ProfileJson(p).fields;
    assert "profilePicUrl" !in fields && "bio" !in fields && "isPrivate" !in fields;
    assert fields["name"] == p.name && fields["followers"] == p.followers;
  }

  /** A submission the form's schema accepts always passes the Express
      route's required-field check and reaches the INSERT; of the seven
      fields it carries, the route stores four: the name, the handle, the
      profile text as trimmed tags (none when it is absent or empty) and
      the notes. */
  lemma SubmissionReachesBackendInsert(f: Form, isUrl: string -> bool,
                                       insert: BackendRoutes.InsertRow -> InsertOutcome)
    requires Submit(f, isUrl).1.Some?
    ensures
      var body := Submit(f, isUrl).1.value.fields;
      var x := BackendRoutes.PostInfluencers(body, insert);
      && x.response.status != 400
      && x.sent.Some?
      && x.sent.value == BackendRoutes.InsertRow(Field(f.data, "fullName"), Field(f.data, "instagram"),
                                                 BackendRoutes.ProfileTags(Field(f.data, "profile")).value,
                                                 Field(f.data, "notes"))
      && (Field(f.data, "profile").Str? && Field(f.data, "profile").s != "" ==>
            x.sent.value.profileTags == Tags.SplitTags(Field(f.data, "profile").s))
      && (!Truthy(Field(f.data, "profile")) ==> x.sent.value.profileTags == [])
  {
    var v := SafeParse(f.data, isUrl).value;
    var body := SubmissionJson(v).fields;
    assert Utf16Length(v.fullName) >= 3;
    assert Truthy(Field(body, "fullName"));
    assert Utf16Length(v.instagram) >= 2;
    assert Truthy(Field(body, "instagram"));
    assert |OptionalTextIssues("profile", Field(f.data, "profile"))| == 0 by {
      assert |Issues(f.data, isUrl)| == 0;
    }
    assert Field(body, "profile") == Field(f.data, "profile");
  }

  /** Were the submission posted to the serverless influencers handler
      instead, it would pass the same check and store all seven fields,
      falsy ones as null. */
  lemma SubmissionReachesServerlessInsert(f: Form, isUrl: string -> bool, select: SelectOutcome,
                                          insert: InfluencerRows.Row -> InsertOutcome)
    requires Submit(f, isUrl).1.Some?
    ensures
      var body := Submit(f, isUrl).1.value.fields;
      var x := VercelInfluencers.Handler("POST", body, select, insert);
      && x.sent.Some?
      && x.sent.value == InfluencerRows.Row(
           Field(f.data, "fullName"), Field(f.data, "instagram"),
           InfluencerRows.OrNull(Field(f.data, "followers")), InfluencerRows.OrNull(Field(f.data, "bio")),
           InfluencerRows.OrNull(Field(f.data, "profilePicUrl")),
           InfluencerRows.ProfileTags(Field(f.data, "profile")).value,
           InfluencerRows.OrNull(Field(f.data, "notes")))
  {
    var v := SafeParse(f.data, isUrl).value;
    var body := SubmissionJson(v).fields;
    assert Utf16Length(v.fullName) >= 3 && Utf16Length(v.instagram) >= 2;
    assert Truthy(Field(body, "fullName")) && Truthy(Field(body, "instagram"));
    assert |OptionalTextIssues("profile", Field(f.data, "profile"))| == 0 by {
      assert |Issues(f.data, isUrl)| == 0;
    }
    assert Field(body, "profile") == Field(f.data, "profile");
  }

  /** No route serves the rewritten picture URL: the Express app has no
      `/proxy-image`, and the proxy handlers live at `/api/proxy-image`.
      Were its `url` parameter handed to the Next proxy handler, that
      handler would fetch exactly the upstream picture URL the scraper saw. */
  lemma ProxiedPictureFetchedVerbatim(raw: JsValue, fetch: string -> ImageProxy.ImageOutcome)
    requires Truthy(raw) && ToString(raw) != ""
    ensures NextProxyImage.Get(ProxyTarget(ConvertToProxyUrl(raw)), fetch).sent == Some(ToString(raw))
  {
    ProxyUrlRoundTrip(raw);
  }
}
